=== FILE: README.md ===
# URL shortener: a Dafny model

This project models the core of a small URL-shortening service and its web
frontend, and proves properties of the model.

On the backend (Express and Mongoose), a client can do three things:

- create a short link for a URL, with an optional validity in minutes and an optional custom shortcode;
- follow the link, which redirects to the stored URL and records a click with its referrer, IP address and coarse location;
- ask for the link's statistics.

The error the service throws becomes an HTTP status by looking for keywords in its message.

The frontend (React) has three pieces:

- a form of one to five rows that checks each row before it asks the backend for a short link;
- a statistics page that trims the shortcode typed into it and shows each click's location as text;
- a logging client that checks the stack, level and package it is given before it posts a record.

Modules, in dependency order:

| module | file | what it holds |
|---|---|---|
| `Wrappers` | `wrappers.dfy` | `Option` and `Result` |
| `JsText` | `js_text.dfy` | the JavaScript string behaviour the code relies on: `includes`, ASCII `toLowerCase`, `trim`, `parseInt` without a radix, `join`, and the two regular expressions |
| `UrlModel` | `url_model.dfy` | the Mongoose document: field defaults, the `trim` setter on the shortcode, `isExpired`, `addClick`, the validators `save` runs and the message of the error it rejects with |
| `UrlService` | `url_service.dfy` | `createShortUrl`, `generateUniqueShortcode`, `redirectToOriginal`, `getUrlStatistics`, `getLocationFromIp`, and the store invariant all of them keep |
| `UrlController` | `url_controller.dfy` | `getErrorStatusCode`, the client-address and referrer fallbacks, and the reply each route handler sends |
| `FrontendLogger` | `logger.dfy` | the frontend `Logger`: `validateInputs`, `log` and the five level helpers |
| `UrlShortener` | `url_shortener.dfy` | the rows of the shortening form, their add, remove and edit handlers, the three validators, and `handleShortenUrl` |
| `StatisticsPage` | `statistics_page.dfy` | `getLocationString`, and `handleGetStatistics` with its trimmed-shortcode guard and the route its unencoded request path reaches |

The model has no I/O, so everything foreign to the code is a parameter:

- **Clock.** The current time is an integer `now` in milliseconds.
- **`validator.isURL`** is a predicate `isUrl`.
- **`shortid.generate`.** Its i-th call is `gen(i)`.
- **`geoip.lookup`.** Its result is an `Option<Geo>`; `None` also stands for a lookup that threw.
- **Database.** The collection is a map from shortcode to document.
- **Network.** Each HTTP answer the frontend waits for is given as an argument.

The frontend's statistics page is connected directly to the backend's statistics handler.

## Model

| member | source | states |
|---|---|---|
| JsText.LowerCase | frontend_test_submission/Logger.js:35-37 | the result has the input's length and no upper-case ASCII letter; every other character is kept, and each upper-case letter moves 32 code points down |
| JsText.LowerCaseOfNoUpper | frontend_test_submission/Logger.js:35-37 | lower-casing a string that has no upper-case letter returns it unchanged |
| JsText.LowerCaseFixedPoints | frontend_test_submission/Logger.js:35-37 | lower-casing is idempotent, and it leaves a string unchanged exactly when the string has no upper-case ASCII letter |
| JsText.Trim | frontend_test_submission/src/components/Statistics.js:33 | the trimmed string is empty exactly when the input is all whitespace; otherwise it starts and ends with a non-whitespace character; it is never longer than the input |
| JsText.TrimOfPadded | frontend_test_submission/src/components/Statistics.js:44 | trimming whitespace placed around a core that does not start or end with whitespace gives back exactly that core |
| JsText.TrimIdempotent | frontend_test_submission/src/components/Statistics.js:33-44 | trimming twice is trimming once |
| JsText.TrimIsTrimStartThenEnd | frontend_test_submission/src/components/Statistics.js:33-44 | trimming is stripping leading whitespace and then trailing whitespace |
| JsText.ParseInt | frontend_test_submission/src/components/UrlShortener.js:60 | a string with no decimal digit parses to NaN (`None`) |
| JsText.ParseIntOfDecimal | frontend_test_submission/src/components/UrlShortener.js:58-62 | `parseInt` reads a decimal numeral back to its value and ignores whatever follows the first non-digit; the one exception is `0` followed by `x`/`X`, which switches to hexadecimal |
| JsText.ParseIntOfNegativeDecimal | frontend_test_submission/src/components/UrlShortener.js:58-62 | the same after a leading minus sign, which negates the value |
| JsText.ParseIntRoundTrip | Backend_Test_Submission/src/services/UrlService.js:10 | `parseInt` inverts the decimal representation of every natural number |
| JsText.Join | frontend_test_submission/src/components/Statistics.js:65 | joining a single part gives that part; a join whose first part is non-empty is non-empty |
| UrlModel.NewRecord | Backend_Test_Submission/src/models/UrlModel.js:33-59 | a new document keeps the URL, expiry and validity supplied, stores the shortcode trimmed (the `trim: true` option), takes as `createdAt` the clock reading made while it is built (the `Date.now` default), and has no clicks, a zero counter consistent with the history, and is active |
| UrlModel.CastShortcodeFixedPoints | Backend_Test_Submission/src/models/UrlModel.js:33-38 | the trim setter leaves a shortcode unchanged exactly when it is empty or neither starts nor ends with whitespace, and applying it twice is applying it once |
| UrlModel.CastOfPatternCode | Backend_Test_Submission/src/models/UrlModel.js:33-38 | the trim setter leaves every code of the `^[a-zA-Z0-9]{3,10}$` format unchanged |
| UrlModel.IsExpired | Backend_Test_Submission/src/models/UrlModel.js:65-67 | a document is not expired at its expiry instant and is expired one millisecond later |
| UrlModel.ExpiryIsPermanent | Backend_Test_Submission/src/models/UrlModel.js:65-67 | once a document is expired it stays expired at every later time |
| UrlModel.ExpiryIsStrict | Backend_Test_Submission/src/models/UrlModel.js:65-67 | a document is not expired at its expiry instant, and is expired exactly from one millisecond later on |
| UrlModel.AddClick | Backend_Test_Submission/src/models/UrlModel.js:69-73 | the click goes at the end of the history, the counter rises by one, no other field changes, and a consistent counter stays consistent |
| UrlModel.ClickViolations | Backend_Test_Submission/src/models/UrlModel.js:11-14 | the click sub-documents produce no violation exactly when every click has an IP address |
| UrlModel.ClickViolationsAreMissingIps | Backend_Test_Submission/src/models/UrlModel.js:11-14 | every click violation names, by its position, a click that has no IP address |
| UrlModel.MissingIpsAreClickViolations | Backend_Test_Submission/src/models/UrlModel.js:11-14 | every click without an IP address has a violation at its position |
| UrlModel.Violations | Backend_Test_Submission/src/models/UrlModel.js:21-51 | a document saves exactly when its URL matches `^https?://.+`, its shortcode is non-empty and every click has an IP address; a bad URL is reported first, as either missing or not matching the pattern |
| UrlModel.SavedUrlsAreHttp | Backend_Test_Submission/src/models/UrlModel.js:25-31 | a saved URL is longer than `http://` and starts with `http://` or `https://` |
| UrlService.ConfigFromEnvironment | Backend_Test_Submission/src/services/UrlService.js:9-10 | the base URL is the variable when it is set and non-empty, else `http://localhost:3001`; the default validity is never zero; it is the variable's `parseInt` value when that is a non-zero number, and 30 when the variable is unset, unparsable or zero |
| UrlService.ConfigNonNumericValidity | Backend_Test_Submission/src/services/UrlService.js:10 | `abc` in the environment leaves the default validity at 30 |
| UrlService.ConfigZeroValidity | Backend_Test_Submission/src/services/UrlService.js:10 | `0` in the environment leaves the default validity at 30 |
| UrlService.ConfigNegativeValidity | Backend_Test_Submission/src/services/UrlService.js:10 | a minus sign, a positive decimal numeral and any non-digit tail (`-5`, `-5min`) make the default validity that negative number, since a negative `parseInt` result is truthy |
| UrlService.ConfigReadsDecimalValidity | Backend_Test_Submission/src/services/UrlService.js:10 | a positive decimal numeral in the environment becomes the default validity |
| UrlService.EffectiveValidity | Backend_Test_Submission/src/services/UrlService.js:20 | a missing or zero validity takes the default; any other value, negative ones included, is used as given |
| UrlService.Candidate | Backend_Test_Submission/src/services/UrlService.js:137 | a candidate is a prefix of the generator's output of at most six characters, and is the whole output only when that output is six characters or fewer |
| UrlService.CandidateIsCast | Backend_Test_Submission/src/services/UrlService.js:137-140 | no character of shortid's alphabet is whitespace, so the trim setter of the `findOne` query leaves every candidate as it is and the candidate itself is looked up |
| UrlService.GenerateFrom | Backend_Test_Submission/src/services/UrlService.js:131-149 | success returns the first of the remaining candidates that is free, and every earlier one is taken; failure happens exactly when all five are taken, and is the "unable to generate" error |
| UrlService.GenerateUniqueShortcode | Backend_Test_Submission/src/services/UrlService.js:131-149 | the do-while loop returns what the recursive description `GenerateFrom` gives from attempt 0 |
| UrlService.ResolveShortcode | Backend_Test_Submission/src/services/UrlService.js:23-39 | a truthy custom code succeeds exactly when it matches `^[a-zA-Z0-9]{3,10}$` and is free, and it is then the code used; a malformed code gives the format error and a taken one the "already exists" error; with no custom code the generator decides; a code that succeeds is free and is left as it is by the trim setter |
| UrlService.CustomShortcodeExamples | Backend_Test_Submission/src/services/UrlService.js:151-154 | `"abc"` is accepted when free, while `"ab"` and `"abc!23"` are refused with the format error |
| UrlService.CreateShortUrl | Backend_Test_Submission/src/services/UrlService.js:12-58 | a missing or non-URL `url` gives the invalid-URL error; otherwise a shortcode error is passed on; on success the code was free, non-empty and left as it is by the trim setter, and the store gains exactly the new document, which expires `minutes * 60000` ms after the first clock reading `now` (line 21) and is created at the later reading `created` (the schema default, applied at line 40); the response is `baseUrl/code` with that expiry; a save failure needs a URL off the http(s) pattern or a generated code; once the URL passes `isURL` and a shortcode is resolved, creation succeeds exactly when the URL matches `^https?://.+` and the code is non-empty, and otherwise fails with exactly the schema violations for those two |
| UrlService.CreateExample | Backend_Test_Submission/src/services/UrlService.js:12-58 | `https://example.com` under the free custom shortcode `abc` with validity 10 is created, answering `baseUrl/abc` with an expiry 10 minutes on |
| UrlService.CreateAddsExactlyOne | Backend_Test_Submission/src/services/UrlService.js:40-46 | creation adds one key, the new code, and leaves every existing document as it was |
| UrlService.OrUnknown | Backend_Test_Submission/src/services/UrlService.js:161-163 | a missing or empty field becomes `Unknown`; any other value is kept; the result is never empty |
| UrlService.LocationFromLookup | Backend_Test_Submission/src/services/UrlService.js:156-175 | with no lookup result every field is `Unknown`; otherwise each field is the lookup's value or `Unknown`; every field is non-empty either way |
| UrlService.ClickReferrer | Backend_Test_Submission/src/services/UrlService.js:80 | a missing or empty referrer becomes `direct`; any other value is kept |
| UrlService.RedirectToOriginal | Backend_Test_Submission/src/services/UrlService.js:60-94 | the document is looked up under the trimmed code, as `findOne({ shortcode })` casts its filter; an unknown code is "not found" and an expired one "expired"; success means the code is known and live, returns the stored URL and appends exactly the new click to that document; a known, live, valid document and a non-empty client address always succeed |
| UrlService.RedirectIgnoresPadding | Backend_Test_Submission/src/services/UrlService.js:64 | whitespace around a code does not change the redirect: the query is cast through the trim setter, so `" abc"` finds the document stored as `abc` |
| UrlService.GetUrlStatistics | Backend_Test_Submission/src/services/UrlService.js:96-129 | the document is looked up under the trimmed code; an unknown code is "not found"; otherwise every field is copied from the document, `isExpired` is `now > expiresAt` at call time, and the clicks are projected one to one, in order, without their IP address |
| UrlService.StatisticsIgnorePadding | Backend_Test_Submission/src/services/UrlService.js:100 | whitespace around a code does not change the statistics returned, for the same reason |
| UrlService.InvariantConsequences | Backend_Test_Submission/src/models/UrlModel.js:33-37 | in a well-formed store no two documents share a shortcode, every key is left as it is by the trim setter and is the shortcode of its document, every URL has the http(s) shape, and every counter equals the length of its history |
| UrlService.CreatePreservesInvariant | Backend_Test_Submission/src/services/UrlService.js:40-46 | a successful creation keeps the store well formed |
| UrlService.RedirectPreservesInvariant | Backend_Test_Submission/src/services/UrlService.js:76-85 | a successful redirect keeps the store well formed |
| UrlService.AddClickKeepsWellFormed | Backend_Test_Submission/src/models/UrlModel.js:69-73 | recording a click with a known location on a well-formed document keeps it well formed when the document still saves |
| UrlService.RedirectFailsOnlyWhenMissingOrExpired | Backend_Test_Submission/src/services/UrlService.js:64-85 | on a well-formed store with a known client address, a redirect fails only as "not found" or "expired" |
| UrlService.SecondCustomShortcodeRejected | Backend_Test_Submission/src/services/UrlService.js:16-34 | a second request for the same custom shortcode, with a URL that passes `isURL`, fails with "already exists", whatever its validity |
| UrlService.ZeroValidityTakesDefault | Backend_Test_Submission/src/services/UrlService.js:20-22 | a validity of 0 is falsy, so the link gets the default validity and its expiry |
| UrlService.NegativeValidityIsBornExpired | Backend_Test_Submission/src/services/UrlService.js:20-22 | a negative validity is accepted, and a redirect at the moment of creation already fails as "expired" |
| UrlService.CreateThenStatistics | Backend_Test_Submission/src/services/UrlService.js:107-120 | after creating with validity `m`, the statistics show `m`, the second clock reading as `createdAt`, an expiry `m` minutes after the first reading, the URL, and no clicks; when the clock has not gone back and `m` is positive, the expiry is at most `m` minutes after `createdAt` |
| UrlService.StatisticsAfterRedirect | Backend_Test_Submission/src/services/UrlService.js:78-85 | statistics read before and after a redirect differ by exactly one click, shown last, and by one on the counter |
| UrlService.RedirectOnLiveLink | Backend_Test_Submission/src/services/UrlService.js:76-88 | a redirect on a live, well-formed document with a known client address succeeds, keeps the document well formed and its expiry unchanged, and appends its click |
| UrlService.ThreeRedirects | Backend_Test_Submission/src/models/UrlModel.js:69-73 | three redirects on a live link add three clicks in call order and raise the counter by three |
| UrlController.ErrorStatusCode | Backend_Test_Submission/src/controllers/UrlController.js:78-84 | the status is one of 404, 410, 409, 400 and 500, chosen by the first of the keys "not found", "expired", "already exists" and "valid" that the message contains; the match is case-sensitive; each status holds exactly under its condition |
| UrlController.InvalidIsSubsumedByValid | Backend_Test_Submission/src/controllers/UrlController.js:82 | a message containing "invalid" also contains "valid", so the first half of the 400 test never decides anything |
| UrlController.CapitalisedNotFoundIs500 | Backend_Test_Submission/src/controllers/UrlController.js:79-83 | "Not Found" matches no key and gives 500 |
| UrlController.UpperCaseExpiredIs500 | Backend_Test_Submission/src/controllers/UrlController.js:80-83 | "EXPIRED" matches no key and gives 500 |
| UrlController.UpperCaseInvalidIs500 | Backend_Test_Submission/src/controllers/UrlController.js:82-83 | "INVALID" gives 500 |
| UrlController.CapitalisedInvalidIs400 | Backend_Test_Submission/src/controllers/UrlController.js:82 | "Invalid" gives 400 through its "valid" |
| UrlController.NotFoundTakesPrecedence | Backend_Test_Submission/src/controllers/UrlController.js:79 | any message containing "not found" gives 404, whatever else it contains |
| UrlController.InvalidUrlStatus | Backend_Test_Submission/src/services/UrlService.js:18 | "Please provide a valid URL" is answered 400 |
| UrlController.ShortcodeFormatStatus | Backend_Test_Submission/src/services/UrlService.js:28 | the shortcode-format message contains none of the keys and is answered 500 |
| UrlController.ShortcodeTakenStatus | Backend_Test_Submission/src/services/UrlService.js:33 | the "already exists" message is answered 409 |
| UrlController.GenerationExhaustedStatus | Backend_Test_Submission/src/services/UrlService.js:144 | the "unable to generate" message is answered 500 |
| UrlController.NotFoundStatus | Backend_Test_Submission/src/services/UrlService.js:68 | "Short URL not found" is answered 404 |
| UrlController.ExpiredStatus | Backend_Test_Submission/src/services/UrlService.js:73 | "Short URL has expired" is answered 410 |
| UrlController.SchemaInvalidStatus | Backend_Test_Submission/src/services/UrlService.js:46 | any rejection from `save` is answered 400, through the "valid" of "Url validation failed", whatever violations it lists |
| UrlController.ServiceErrorStatuses | Backend_Test_Submission/src/controllers/UrlController.js:78-84 | the status of every service error, read off its message, is the one in the as-written table |
| UrlController.StatusForError | Backend_Test_Submission/src/controllers/UrlController.js:78-84 | the corrected table: an error the client causes gets a 4xx status and only an exhausted generator gets 500; it agrees with the message matching on every error except the shortcode-format one, which gets 400 |
| UrlController.ShortcodeFormatIsMisclassified | Backend_Test_Submission/src/controllers/UrlController.js:78-84 | the shortcode-format error is caused by the client, yet the message matching answers it 500 where the corrected table gives 400 |
| UrlController.ClientIp | Backend_Test_Submission/src/controllers/UrlController.js:14 | the client address is `req.ip` when non-empty, else the socket address when non-empty, else `127.0.0.1`; it is never empty |
| UrlController.RequestReferrer | Backend_Test_Submission/src/controllers/UrlController.js:36 | the `Referer` header is consulted only when `Referrer` is missing or empty |
| UrlController.ClickReferrerFromHeaders | Backend_Test_Submission/src/controllers/UrlController.js:36 | a click records the first non-empty referrer header, or `direct` when there is none |
| UrlController.ErrorReply | Backend_Test_Submission/src/controllers/UrlController.js:21-28 | the error body carries the error's message under `getErrorStatusCode(message)`, which is the as-written status of the error's kind; it agrees with the corrected table on every error except the shortcode-format one |
| UrlController.CorrectedErrorReply | Backend_Test_Submission/src/controllers/UrlController.js:78-84 | the catch block under the corrected table: the message is kept, the status is a 4xx exactly for client-caused errors, and the shortcode-format error gets 400 |
| UrlController.CorrectedReplyDiffersOnlyOnFormat | Backend_Test_Submission/src/controllers/UrlController.js:78-84 | the corrected reply differs from the as-written one exactly on the shortcode-format error, which goes from 500 to 400 |
| UrlController.CreateHandler | Backend_Test_Submission/src/controllers/UrlController.js:10-30 | a successful creation answers 201 with the response and the new store; a failure answers the error under its `getErrorStatusCode` status and leaves the store alone |
| UrlController.CreateHandlerRejections | Backend_Test_Submission/src/controllers/UrlController.js:21-28 | a bad URL is answered 400, a malformed custom shortcode 500 (its message matches no key), and a taken shortcode 409, each with the service's message and the store unchanged |
| UrlController.RedirectHandler | Backend_Test_Submission/src/controllers/UrlController.js:32-54 | the handler redirects to the URL the service returned, passing it the fallback client address and referrer; on an error it answers the error and leaves the store alone |
| UrlController.StatisticsHandler | Backend_Test_Submission/src/controllers/UrlController.js:56-76 | a code whose trimmed form is known is answered 200 with its statistics, which on a well-formed store carry that trimmed code; any other code is answered 404 with "Short URL not found" |
| UrlController.RedirectHandlerOutcomes | Backend_Test_Submission/src/controllers/UrlController.js:32-54 | on a well-formed store the handler redirects exactly when the trimmed code is known and live, and always to the stored URL |
| UrlController.RedirectHandlerErrors | Backend_Test_Submission/src/controllers/UrlController.js:45-53 | a code whose trimmed form is unknown is answered 404 and one whose document has expired 410, each with the service's message, and the store is unchanged |
| UrlController.RedirectHandlerKeepsInvariant | Backend_Test_Submission/src/controllers/UrlController.js:40 | the redirect handler keeps the store well formed |
| UrlController.PaddedCodeHandledAsCode | Backend_Test_Submission/src/services/UrlService.js:64-100 | the redirect and statistics routes answer a code with whitespace around it (`GET /%20abc`) exactly as they answer the code itself |
| FrontendLogger.ValidateInputs | frontend_test_submission/Logger.js:16-28 | stack, level and package are checked in that order, case-sensitively; each error kind occurs exactly when its check is the first to fail, and it names the offending value; a package is checked only for the frontend stack |
| FrontendLogger.BackendAcceptsAnyPackage | frontend_test_submission/Logger.js:25 | a backend log with a listed level passes, whatever its package |
| FrontendLogger.Log | frontend_test_submission/Logger.js:30-61 | nothing is posted exactly when validation fails; a posted record holds the lower-cased stack, level and package and the message unchanged; `log` returns the response data exactly when something was posted and the answer was a 200 |
| FrontendLogger.ListedNamesAreLowerCase | frontend_test_submission/Logger.js:9-13 | every listed stack, level and frontend package is already lower case |
| FrontendLogger.PostedRecordKeepsValidatedFields | frontend_test_submission/Logger.js:32-39 | inputs that pass validation are always posted; since validation is case-sensitive, a posted record keeps the stack and level as given; a frontend package also reaches the record as given |
| FrontendLogger.CapitalisedStackRejected | frontend_test_submission/Logger.js:17-19 | "Backend" is rejected as a stack, though lower-casing would have made it valid |
| FrontendLogger.LogAtListedLevel | frontend_test_submission/Logger.js:30-61 | at a listed level only the stack and the frontend package can be rejected, and a posted record carries the stack as given |
| FrontendLogger.Info | frontend_test_submission/Logger.js:63-65 | nothing is posted exactly when the stack or the frontend package is invalid; a posted record has level `info`, the stack as given (its lower-cased form), the lower-cased package and the message unchanged; the call returns the response data exactly when a record was posted and answered 200 |
| FrontendLogger.Warn | frontend_test_submission/Logger.js:67-69 | nothing is posted exactly when the stack or the frontend package is invalid; a posted record has level `warn`, the stack as given (its lower-cased form), the lower-cased package and the message unchanged; the call returns the response data exactly when a record was posted and answered 200 |
| FrontendLogger.Error | frontend_test_submission/Logger.js:71-73 | nothing is posted exactly when the stack or the frontend package is invalid; a posted record has level `error`, the stack as given (its lower-cased form), the lower-cased package and the message unchanged; the call returns the response data exactly when a record was posted and answered 200 |
| FrontendLogger.Debug | frontend_test_submission/Logger.js:75-77 | nothing is posted exactly when the stack or the frontend package is invalid; a posted record has level `debug`, the stack as given (its lower-cased form), the lower-cased package and the message unchanged; the call returns the response data exactly when a record was posted and answered 200 |
| FrontendLogger.Fatal | frontend_test_submission/Logger.js:79-81 | nothing is posted exactly when the stack or the frontend package is invalid; a posted record has level `fatal`, the stack as given (its lower-cased form), the lower-cased package and the message unchanged; the call returns the response data exactly when a record was posted and answered 200 |
| UrlShortener.BlankRow | frontend_test_submission/src/components/UrlShortener.js:28-36 | a new row has the given id, empty inputs, no result, no loading flag and no error |
| UrlShortener.InitialRowsInvariant | frontend_test_submission/src/components/UrlShortener.js:20-22 | the form starts with one to five rows and distinct ids |
| UrlShortener.AddRow | frontend_test_submission/src/components/UrlShortener.js:25-38 | below five rows a blank row with the new id is appended and the rest are kept; at five the list is unchanged |
| UrlShortener.WithoutId | frontend_test_submission/src/components/UrlShortener.js:43 | the filtered list keeps exactly the rows whose id differs, and is never longer |
| UrlShortener.WithoutIdConcat | frontend_test_submission/src/components/UrlShortener.js:43 | filtering keeps order: the filter of a concatenation is the concatenation of the filtered halves |
| UrlShortener.WithoutIdSingle | frontend_test_submission/src/components/UrlShortener.js:43 | a single row survives the filter exactly when its id differs |
| UrlShortener.RemoveRow | frontend_test_submission/src/components/UrlShortener.js:40-45 | with more than one row the rows with that id are filtered out; a single row is never removed |
| UrlShortener.UpdateRow | frontend_test_submission/src/components/UrlShortener.js:48-50 | the rows with the id are changed and all others are kept, position by position |
| UrlShortener.Edited | frontend_test_submission/src/components/UrlShortener.js:49 | the named input takes the value, the error is cleared, and nothing else changes |
| UrlShortener.InputChange | frontend_test_submission/src/components/UrlShortener.js:47-51 | the rows with the id are edited and all others are kept |
| UrlShortener.WithoutPresentId | frontend_test_submission/src/components/UrlShortener.js:43 | with distinct ids, filtering keeps them distinct and drops exactly one row when the id is present, none otherwise |
| UrlShortener.AddRowPreservesInvariant | frontend_test_submission/src/components/UrlShortener.js:25-38 | adding a row with a fresh id keeps one to five rows with distinct ids |
| UrlShortener.RemoveRowPreservesInvariant | frontend_test_submission/src/components/UrlShortener.js:40-45 | removing keeps one to five rows with distinct ids, and with more than one row no row keeps the id |
| UrlShortener.InputChangePreservesInvariant | frontend_test_submission/src/components/UrlShortener.js:47-51 | editing keeps one to five rows with distinct ids |
| UrlShortener.SharedIdEmptiesForm | frontend_test_submission/src/components/UrlShortener.js:29 | removing the id that two rows share (two rows added in the same millisecond of `Date.now()`) removes both, leaving the form empty |
| UrlShortener.ValidateUrl | frontend_test_submission/src/components/UrlShortener.js:53-56 | an accepted URL is longer than `http://` and starts with `http://` or `https://` |
| UrlShortener.ValidateValidity | frontend_test_submission/src/components/UrlShortener.js:58-62 | an empty field is accepted; an accepted non-empty field parses to a number that the backend uses as the validity, whatever its default |
| UrlShortener.ValidateShortcode | frontend_test_submission/src/components/UrlShortener.js:64-68 | an accepted non-empty code has three to ten characters, and the schema's trim setter leaves every accepted code as it is |
| UrlShortener.FormShortcodeCheckIsServiceCheck | frontend_test_submission/src/components/UrlShortener.js:64-68 | the form accepts the empty field, and a typed code exactly when the service's `isValidShortcode` does not turn it down with the format error |
| UrlShortener.FormUrlCheckIsSchemaCheck | frontend_test_submission/src/components/UrlShortener.js:53-56 | the form accepts a URL exactly when the backend's schema validation does, for any shortcode that the trim setter leaves non-empty |
| UrlShortener.ValidityOfDecimal | frontend_test_submission/src/components/UrlShortener.js:58-62 | a decimal numeral, possibly followed by text, is a valid validity exactly when it is positive |
| UrlShortener.NegativeValidityRejected | frontend_test_submission/src/components/UrlShortener.js:58-62 | a negative numeral is rejected, whatever follows it |
| UrlShortener.NonNumericValidityRejected | frontend_test_submission/src/components/UrlShortener.js:58-62 | non-empty text without a digit is rejected |
| UrlShortener.BuildRequest | frontend_test_submission/src/components/UrlShortener.js:99-103 | the request carries the URL as typed, the parsed validity unless the field is empty, and the shortcode unless it is empty |
| UrlShortener.StartShorten | frontend_test_submission/src/components/UrlShortener.js:70-103 | a row is rejected exactly when one of its three checks fails, with the message of the first failing check, in the order URL, validity, shortcode; otherwise the row is set loading and the request is built from it |
| UrlShortener.FinishShorten | frontend_test_submission/src/components/UrlShortener.js:107-123 | other rows are untouched; the row stops loading and either stores the response or shows the server's error, falling back to "Failed to shorten URL"; on failure every other field of the row is kept |
| UrlShortener.FormRequestsPassBackendChecks | frontend_test_submission/src/components/UrlShortener.js:99-103 | a row that passes the three checks is sent, and a request the form sends passes the backend's URL pattern and shortcode check, and any validity it carries is positive and is the one the backend uses |
| StatisticsPage.NonEmpty | frontend_test_submission/src/components/Statistics.js:64 | `filter(Boolean)` keeps exactly the non-empty parts, and is empty exactly when every part is empty |
| StatisticsPage.NonEmptyConcat | frontend_test_submission/src/components/Statistics.js:64 | the filter keeps order: the filter of a concatenation is the concatenation of the filtered halves |
| StatisticsPage.NonEmptySingle | frontend_test_submission/src/components/Statistics.js:64 | the filter keeps a single field exactly when it is non-empty |
| StatisticsPage.NonEmptyOfThree | frontend_test_submission/src/components/Statistics.js:64 | the fields are kept in the order city, region, country, each exactly when it is non-empty |
| StatisticsPage.LocationStringInOrder | frontend_test_submission/src/components/Statistics.js:62-66 | whichever fields are present are shown in the order city, region, country, joined with ", "; with none present the location shows `Unknown` |
| StatisticsPage.LocationString | frontend_test_submission/src/components/Statistics.js:62-66 | no location, or one whose fields are all empty, shows `Unknown`; otherwise the non-empty fields are joined with ", "; the result is never empty |
| StatisticsPage.RecordedLocationShowsAllFields | frontend_test_submission/src/components/Statistics.js:62-66 | a location the backend recorded shows as "city, region, country" |
| StatisticsPage.FailedLookupShownThreeTimes | frontend_test_submission/src/components/Statistics.js:62-66 | a click whose lookup failed shows as "Unknown, Unknown, Unknown" |
| StatisticsPage.CityOnlyShowsCity | frontend_test_submission/src/components/Statistics.js:64-65 | a location with only a city shows the city alone |
| StatisticsPage.StatisticsRequest | frontend_test_submission/src/components/Statistics.js:33-44 | an all-whitespace entry is refused with "Please enter a shortcode"; otherwise the trimmed entry is requested, and it is non-empty and has no surrounding whitespace |
| StatisticsPage.PaddedShortcodeRequested | frontend_test_submission/src/components/Statistics.js:44 | whitespace typed around a valid shortcode is dropped, and the shortcode itself is requested |
| StatisticsPage.StatisticsRequestIdempotent | frontend_test_submission/src/components/Statistics.js:44 | requesting again with what was requested asks for the same shortcode |
| StatisticsPage.PathPart | frontend_test_submission/src/services/urlService.js:29 | the path sent is the longest prefix of the code without `?` or `#`; it stops only at one of them |
| StatisticsPage.RouteOf | Backend_Test_Submission/src/routes/urlRoutes.js:11-13 | a path part that is one plain segment reaches the statistics route with itself as the parameter; one split by an inner `/` reaches no route |
| StatisticsPage.PathPartOfPlainCode | frontend_test_submission/src/services/urlService.js:29 | a code without `?` or `#` is sent whole |
| StatisticsPage.PathPartStopsAtQuery | frontend_test_submission/src/services/urlService.js:29 | whatever follows a `?` is not part of the path |
| StatisticsPage.PatternCodeIsSingleSegment | frontend_test_submission/src/services/urlService.js:29 | a code of the custom-shortcode format is sent whole, as one segment |
| StatisticsPage.GetStatistics | frontend_test_submission/src/components/Statistics.js:32-56 | a blank entry only sets the message; otherwise the trimmed code's path part is sent: as one segment, a known code shows its statistics with no error and an unknown one clears them and shows "Short URL not found"; split by an inner `/`, it clears them and shows "Route not found" (Backend_Test_Submission/src/app.js:43-50); the model gives no page for any other path |
| StatisticsPage.SameRouteSamePage | frontend_test_submission/src/components/Statistics.js:44 | two non-blank entries whose trimmed codes select the same route show the same page |
| StatisticsPage.QueryAfterCodeIgnored | frontend_test_submission/src/services/urlService.js:29 | a query typed after a code (`abc?x`) shows what the code alone shows |
| StatisticsPage.SlashedCodeNotRouted | Backend_Test_Submission/src/app.js:43-50 | the entry `a/b` shows "Route not found" |
| StatisticsPage.NewLinkStatisticsShown | frontend_test_submission/src/components/Statistics.js:32-56 | looking up a link newly created under a custom code, with whitespace around its code, shows its statistics with no clicks |

## Left out

- **Logging.** Every backend `logger` call is left out. The model assumes those calls neither fail nor change anything. The POST to the log server is a parameter of `FrontendLogger.Log`, and `console` output is not modelled.
- **Concurrency and the database.**
  - Two requests interleaving is not modelled.
  - A duplicate-key error (E11000) from the `unique` index on `shortcode` is not modelled.
  - Two `addClick` calls racing on the same document are not modelled.
  - A document is looked up, checked and saved in one step.
- **Dates.**
  - Dates are integers counting milliseconds.
  - `setMinutes(getMinutes() + v)` is modelled as adding `v * 60000`, so daylight-saving shifts are ignored.
  - ISO strings (`toISOString`) and `toLocaleString` formatting are not modelled. `expiry`, `createdAt` and the click timestamps stay numbers.
  - The clock is a parameter. `createShortUrl` reads it twice, for the expiry base and for `createdAt`, and the model takes both readings as arguments without assuming an order between them.
- **The timestamp in error bodies** is not modelled.
- **UrlService.CreateShortUrl: the range of JavaScript dates is not modelled.** A validity so large that `setMinutes` leaves the ±8.64e15 ms range gives an Invalid Date. Mongoose then rejects `expiresAt` with a cast error, answered 400. The model has unbounded integers and creates the link.
- **UrlService.CreateShortUrl: `url` and `shortcode` are modelled as optional strings.** A non-string `url` makes `validator.isURL` throw a TypeError, answered 500. A number as `shortcode` is coerced to text by the regular expression test. Neither case is modelled.
- **UrlService.CreateShortUrl: the JSON body's `validity` is modelled as an optional integer.**
  - A string or fractional validity sent by some other client is not modelled. With a string, JavaScript would concatenate it in `getMinutes() + validity`.
  - The `clientIp` argument of `createShortUrl` is never used by the source and is not modelled.
- **isActive.** The `isActive` field is stored with its default but never read or written afterwards.
- **validator.isURL** is a parameter. Its rules are not modelled.
- **Generated shortcodes.** `gen` is any function into strings over shortid's alphabet (letters, digits, `_` and `-`), the type `UrlService.ShortId`. shortid's length and its randomness are not modelled, so a generated code is not claimed to be alphanumeric, non-empty or exactly six characters long.
- **JsText.LowerCase** maps only ASCII letters. Unicode case mapping is not modelled.
- **UTF-16.** Strings are sequences of code points, not UTF-16 code units.
- **JsText.ParseInt: the contract states only that a string without digits gives NaN.**
  - The decimal cases are stated by `ParseIntOfDecimal` and `ParseIntOfNegativeDecimal`.
  - No lemma covers the hexadecimal branch.
  - Integers are unbounded, so the loss of precision past 2^53 is not modelled.
- **JsText.Join: its contract states only the one-part case and non-emptiness.** The three-part case that the statistics page uses is proved as a lemma, `StatisticsPage.JoinThree`.
- **FrontendLogger.ValidateInputs** returns the error kind with the offending value. It does not return the text of the `Error` it throws.
- **FrontendLogger.Log** leaves out the endpoint, the access token, the request headers and the 5-second timeout. The response is an argument, and `None` means the request threw.
- **Fresh row ids.** `Date.now()` is a parameter. `UrlShortener.AddRowPreservesInvariant` assumes the new id is not already in the list. `UrlShortener.SharedIdEmptiesForm` shows what happens when it is.
- **Frontend pieces with no model.**
  - `copyToClipboard`, `formatDate` and all JSX rendering are left out.
  - So are the `loading` flag of the statistics page, the frontend `urlService` wrapper and the HTTP transport between frontend and backend.
  - `StatisticsPage.GetStatistics` uses the backend's routes and statistics handler directly. A network failure with no response body is not modelled.
- **StatisticsPage.GetStatistics: not every request path is followed.** The code goes into the URL unencoded, so the model cuts it at the first `?` or `#` and follows two shapes of what is left: one plain segment (the statistics route) and segments split by an inner `/` (the catch-all route's "Route not found"). For any other path part the result is `None`. Those are: an empty one (`?abc`), `.` or `..`, a trailing `/`, or one holding `%`, `\`, a control character, or a `.` among several segments. There the browser's URL normalisation or Express's parameter decoding decides, and may pick another route or a decoding error.
- **Behaviour worth knowing.** The model follows the code, which does the following:
  - **Zero validity.** A validity of 0 takes the default rather than expiring at once.
  - **Negative validity** is accepted, and creates a link that is already expired.
  - **Generated codes** are only cut to six characters.
  - **Errors** carry no kind: the status is chosen by searching the message text.
  - **Padded codes.** The `trim` option on `shortcode` also applies to query filters, so `GET /%20abc` redirects like `GET /abc`.
  - **Unencoded codes.** The statistics page puts the code into the URL as typed, so `abc?x` shows the statistics of `abc`.
  - **The shortcode-format error** is answered 500 (see Findings).

## Findings

| source | as written | input that shows it | evidently intended | confidence | as-written member | corrected member |
|---|---|---|---|---|---|---|
| Backend_Test_Submission/src/controllers/UrlController.js:78-84 | the status is chosen by looking for keywords in the error message. The message for a malformed custom shortcode, "Shortcode must be alphanumeric and 3-10 characters long" (Backend_Test_Submission/src/services/UrlService.js:28), contains none of the keys, so the client's mistake is answered 500 | `POST /shorturls` with `{ "url": "https://example.com", "shortcode": "ab" }` | 400, like the invalid-URL error, because the client caused it and can fix it | not executed | UrlController.ShortcodeFormatIsMisclassified | UrlController.StatusForError |

=== FILE: js_text.dfy ===
/** String primitives with the JavaScript semantics the application relies on:
    `String.prototype.includes`, the ASCII part of `toLowerCase`, `trim`,
    `parseInt` without a radix argument, `Array.prototype.join`, and the two
    regular expressions the backend and the frontend both test strings against.
    Strings are sequences of code points; the UTF-16 encoding is not modelled. */
module JsText {
  import opened Wrappers

  // -------------------------------------------------------------------------
  // Substring search

  /** `key` occurs in `s` starting at index `i`. */
  predicate OccursAt(s: string, key: string, i: int) {
    0 <= i <= |s| - |key| && s[i..i + |key|] == key
  }

  /** `s.includes(key)`: case-sensitive substring search. */
  predicate Contains(s: string, key: string) {
    exists i | 0 <= i <= |s| - |key| :: OccursAt(s, key, i)
  }

  /** A string contains whatever it is built around. */
  lemma ContainsInfix(a: string, key: string, b: string)
    ensures Contains(a + key + b, key)
  {
    assert OccursAt(a + key + b, key, |a|);
  }

  /** Text appended after an occurrence does not remove it. */
  lemma ContainsOfPrefix(a: string, b: string, key: string)
    requires Contains(a, key)
    ensures Contains(a + b, key)
  {
    var i :| 0 <= i <= |a| - |key| && OccursAt(a, key, i);
    assert (a + b)[i..i + |key|] == a[i..i + |key|];
    assert OccursAt(a + b, key, i);
  }

  /** A string containing `key` contains every suffix of `key` as well. */
  lemma ContainsKeySuffix(s: string, key: string, k: nat)
    requires k <= |key| && Contains(s, key)
    ensures Contains(s, key[k..])
  {
    var i :| 0 <= i <= |s| - |key| && OccursAt(s, key, i);
    assert s[i + k..i + |key|] == key[k..];
    assert OccursAt(s, key[k..], i + k);
  }

  /** A string that lacks one character of `key` does not contain `key`. */
  lemma NotContainsMissingChar(s: string, key: string, j: nat)
    requires j < |key| && key[j] !in s
    ensures !Contains(s, key)
  {
  }

  /** If the character `c` of `key` occurs exactly once in a string, and the
      character after it there differs from the one after it in `key`, the
      string does not contain `key`. */
  lemma NotContainsUniqueChar(a: string, c: char, b: string, key: string, j: nat)
    requires j + 1 < |key| && key[j] == c
    requires c !in a && c !in b
    requires |b| > 0 && b[0] != key[j + 1]
    ensures !Contains(a + [c] + b, key)
  {
  }

  // -------------------------------------------------------------------------
  // Lower-casing

  predicate IsAsciiUpper(c: char) {
    'A' <= c <= 'Z'
  }

  /** `toLowerCase` on one character; only ASCII letters are mapped. */
  function LowerChar(c: char): char {
    if IsAsciiUpper(c) then (c as int + 32) as char else c
  }

  /** `s.toLowerCase()` restricted to ASCII letters. */
  function LowerCase(s: string): (r: string)
    ensures |r| == |s|
    ensures forall k | 0 <= k < |r| :: !IsAsciiUpper(r[k])
    ensures forall k | 0 <= k < |s| && !IsAsciiUpper(s[k]) :: r[k] == s[k]
    ensures forall k | 0 <= k < |s| && IsAsciiUpper(s[k]) :: r[k] as int == s[k] as int + 32
  {
    if s == [] then [] else [LowerChar(s[0])] + LowerCase(s[1..])
  }

  /** No upper-case ASCII letter, checked one character at a time. */
  predicate HasNoUpper(s: string) {
    s == [] || (!IsAsciiUpper(s[0]) && HasNoUpper(s[1..]))
  }

  /** Lower-casing leaves a string without upper-case letters as it is. */
  lemma {:induction false} LowerCaseOfNoUpper(s: string)
    requires HasNoUpper(s)
    ensures LowerCase(s) == s
  {
    if s != [] {
      LowerCaseOfNoUpper(s[1..]);
    }
  }

  /** Lower-casing is idempotent, and it fixes exactly the strings without an
      upper-case ASCII letter. */
  lemma LowerCaseFixedPoints(s: string)
    ensures LowerCase(LowerCase(s)) == LowerCase(s)
    ensures LowerCase(s) == s <==> forall k | 0 <= k < |s| :: !IsAsciiUpper(s[k])
  {
    var r := LowerCase(s);
    assert LowerCase(r) == r;
    if LowerCase(s) == s {
      assert forall k | 0 <= k < |s| :: !IsAsciiUpper(r[k]);
    }
  }

  // -------------------------------------------------------------------------
  // Whitespace trimming

  /** The ECMAScript WhiteSpace and LineTerminator code points: what `trim`
      removes and what `parseInt` skips. */
  predicate IsJsWhitespace(c: char) {
    if c < '\U{00A0}' then c == ' ' || '\t' <= c <= '\r'
    else
      || c == '\U{00A0}' || c == '\U{1680}' || ('\U{2000}' <= c <= '\U{200A}')
      || c == '\U{2028}' || c == '\U{2029}' || c == '\U{202F}' || c == '\U{205F}'
      || c == '\U{3000}' || c == '\U{FEFF}'
  }

  predicate AllWhitespace(s: string) {
    forall k | 0 <= k < |s| :: IsJsWhitespace(s[k])
  }

  /** `s.trimStart()`: the suffix left after dropping leading whitespace. */
  function TrimStart(s: string): (r: string)
    ensures |r| <= |s| && r == s[|s| - |r|..]
    ensures AllWhitespace(s[..|s| - |r|])
    ensures r == [] || !IsJsWhitespace(r[0])
  {
    if |s| > 0 && IsJsWhitespace(s[0]) then
      var r := TrimStart(s[1..]);
      assert s[..|s| - |r|] == [s[0]] + s[1..][..|s[1..]| - |r|];
      r
    else
      s
  }

  /** `s.trimEnd()`: the prefix left after dropping trailing whitespace. */
  function TrimEnd(s: string): (r: string)
    ensures |r| <= |s| && r == s[..|r|]
    ensures AllWhitespace(s[|r|..])
    ensures r == [] || !IsJsWhitespace(r[|r| - 1])
  {
    if |s| > 0 && IsJsWhitespace(s[|s| - 1]) then
      var r := TrimEnd(s[..|s| - 1]);
      assert s[|r|..] == s[..|s| - 1][|r|..] + [s[|s| - 1]];
      r
    else
      s
  }

  /** `s.trim()`: `s` without its leading and trailing whitespace. It is empty
      exactly for blank strings, and otherwise starts and ends with a
      non-whitespace character. The leading whitespace is dropped one
      character at a time, then `trimEnd` does the rest. */
  function Trim(s: string): (r: string)
    ensures r == [] <==> AllWhitespace(s)
    ensures r != [] ==> !IsJsWhitespace(r[0]) && !IsJsWhitespace(r[|r| - 1])
    ensures |r| <= |s|
    decreases |s|
  {
    if |s| > 0 && IsJsWhitespace(s[0]) then
      assert AllWhitespace(s) <==> AllWhitespace(s[1..]) by {
        assert forall k | 1 <= k < |s| :: s[k] == s[1..][k - 1];
      }
      Trim(s[1..])
    else
      var r := TrimEnd(s);
      assert r == [] ==> s[|r|..] == s;
      r
  }

  /** `trim` is `trimStart` followed by `trimEnd`. */
  lemma {:induction false} TrimIsTrimStartThenEnd(s: string)
    ensures Trim(s) == TrimEnd(TrimStart(s))
    decreases |s|
  {
    if |s| > 0 && IsJsWhitespace(s[0]) {
      TrimIsTrimStartThenEnd(s[1..]);
    }
  }

  /** Trimming removes exactly the surrounding whitespace: a string with
      whitespace around a core that neither starts nor ends with whitespace
      trims to that core. */
  lemma TrimOfPadded(a: string, t: string, b: string)
    requires AllWhitespace(a) && AllWhitespace(b)
    requires t == [] || (!IsJsWhitespace(t[0]) && !IsJsWhitespace(t[|t| - 1]))
    ensures Trim(a + t + b) == t
  {
    if t == [] {
      BlankConcat(a, b);
      assert a + t + b == a + b;
    } else {
      assert a + t + b == a + (t + b);
      TrimStartOfPadded(a, t + b);
      TrimEndOfPadded(t, b);
      TrimIsTrimStartThenEnd(a + t + b);
    }
  }

  /** Two runs of whitespace make one, which trims to nothing. */
  lemma BlankConcat(a: string, b: string)
    requires AllWhitespace(a) && AllWhitespace(b)
    ensures AllWhitespace(a + b) && Trim(a + b) == []
  {
    var s := a + b;
    forall k | 0 <= k < |s|
      ensures IsJsWhitespace(s[k])
    {
      if k < |a| { assert s[k] == a[k]; } else { assert s[k] == b[k - |a|]; }
    }
  }

  lemma {:induction false} TrimStartOfPadded(a: string, u: string)
    requires AllWhitespace(a)
    requires u == [] || !IsJsWhitespace(u[0])
    ensures TrimStart(a + u) == u
  {
    if a != [] {
      assert (a + u)[1..] == a[1..] + u;
      TrimStartOfPadded(a[1..], u);
    }
  }

  lemma {:induction false} TrimEndOfPadded(u: string, b: string)
    requires AllWhitespace(b)
    requires u == [] || !IsJsWhitespace(u[|u| - 1])
    ensures TrimEnd(u + b) == u
  {
    if b != [] {
      assert (u + b)[..|u + b| - 1] == u + b[..|b| - 1];
      TrimEndOfPadded(u, b[..|b| - 1]);
    }
  }

  /** Trimming twice is trimming once. */
  lemma TrimIdempotent(s: string)
    ensures Trim(Trim(s)) == Trim(s)
  {
    var t := Trim(s);
    TrimIsTrimStartThenEnd(t);
    if t != [] {
      assert TrimStart(t) == t;
      assert TrimEnd(t) == t;
    }
  }

  // -------------------------------------------------------------------------
  // parseInt

  predicate IsDecimalDigit(c: char) {
    '0' <= c <= '9'
  }

  /** The value of `c` as a digit in bases up to 36, or 36 when it is no digit. */
  function DigitValue(c: char): (v: nat)
    ensures v <= 36
    ensures v < 10 <==> IsDecimalDigit(c)
  {
    if '0' <= c <= '9' then c as int - '0' as int
    else if 'a' <= c <= 'z' then c as int - 'a' as int + 10
    else if 'A' <= c <= 'Z' then c as int - 'A' as int + 10
    else 36
  }

  /** The length of the longest prefix of `s` made of digits of `radix`. */
  function DigitRunLength(s: string, radix: nat): (n: nat)
    ensures n <= |s|
    ensures forall k | 0 <= k < n :: DigitValue(s[k]) < radix
    ensures n < |s| ==> DigitValue(s[n]) >= radix
  {
    if |s| > 0 && DigitValue(s[0]) < radix then 1 + DigitRunLength(s[1..], radix) else 0
  }

  /** The number that `digits` denotes in base `radix`, most significant first. */
  function DigitsValue(digits: string, radix: nat): nat {
    if digits == [] then 0
    else DigitsValue(digits[..|digits| - 1], radix) * radix + DigitValue(digits[|digits| - 1])
  }

  /** The magnitude `parseInt` reads after the sign: base 16 after a
      `0x`/`0X` prefix, base 10 otherwise, the longest run of digits of that
      base; `None` when the run is empty. */
  function ParseMagnitude(u: string): (r: Option<nat>)
    ensures r.Some? ==> |u| > 0 && IsDecimalDigit(u[0])
  {
    var hex := |u| >= 2 && u[0] == '0' && (u[1] == 'x' || u[1] == 'X');
    var radix := if hex then 16 else 10;
    var body := if hex then u[2..] else u;
    var n := DigitRunLength(body, radix);
    if n == 0 then None else Some(DigitsValue(body[..n], radix))
  }

  /** `parseInt(s)` with no radix: skip leading whitespace, take an optional
      sign, then read the magnitude; `None` stands for `NaN`. */
  function ParseInt(s: string): (r: Option<int>)
    ensures (forall k | 0 <= k < |s| :: !IsDecimalDigit(s[k])) ==> r.None?
  {
    var t := TrimStart(s);
    var negative := |t| > 0 && t[0] == '-';
    var unsigned := if |t| > 0 && (t[0] == '-' || t[0] == '+') then t[1..] else t;
    match ParseMagnitude(unsigned)
    case None => None
    case Some(m) =>
      assert unsigned[0] == s[|s| - |unsigned|];
      Some(if negative then -(m as int) else m)
  }

  function DigitChar(d: nat): (c: char)
    requires d < 10
    ensures IsDecimalDigit(c) && DigitValue(c) == d
  {
    ('0' as int + d) as char
  }

  /** The decimal representation of `n`, without leading zeros. */
  function DecimalString(n: nat): (r: string)
    ensures |r| > 0
    ensures forall k | 0 <= k < |r| :: IsDecimalDigit(r[k])
    ensures DigitsValue(r, 10) == n
    ensures |r| > 1 ==> r[0] != '0'
  {
    if n < 10 then [DigitChar(n)]
    else
      var r := DecimalString(n / 10) + [DigitChar(n % 10)];
      assert r[..|r| - 1] == DecimalString(n / 10);
      r
  }

  /** `parseInt` reads back a decimal numeral and stops at the first
      character that is not a digit. The exception is the numeral `0`
      followed by `x` or `X`, which switches to base 16. */
  lemma ParseIntOfDecimal(n: nat, rest: string)
    requires rest == [] || !IsDecimalDigit(rest[0])
    requires n == 0 && rest != [] ==> rest[0] != 'x' && rest[0] != 'X'
    ensures ParseInt(DecimalString(n) + rest) == Some(n)
  {
    var u := DecimalString(n) + rest;
    ParseMagnitudeOfDecimal(n, rest);
    assert u[0] == DecimalString(n)[0];
    ParseIntUnsigned(u, n);
  }

  /** The same after a minus sign, which negates the value. */
  lemma ParseIntOfNegativeDecimal(n: nat, rest: string)
    requires rest == [] || !IsDecimalDigit(rest[0])
    requires n == 0 && rest != [] ==> rest[0] != 'x' && rest[0] != 'X'
    ensures ParseInt("-" + (DecimalString(n) + rest)) == Some(-(n as int))
  {
    ParseMagnitudeOfDecimal(n, rest);
    ParseIntSigned(DecimalString(n) + rest, n);
  }

  lemma ParseIntUnsigned(u: string, m: nat)
    requires |u| > 0 && IsDecimalDigit(u[0]) && ParseMagnitude(u) == Some(m)
    ensures ParseInt(u) == Some(m)
  {
    assert !IsJsWhitespace(u[0]);
    assert TrimStart(u) == u;
    assert u[0] != '-' && u[0] != '+';
  }

  lemma ParseIntSigned(u: string, m: nat)
    requires ParseMagnitude(u) == Some(m)
    ensures ParseInt("-" + u) == Some(-(m as int))
  {
    var s := "-" + u;
    assert s[0] == '-' && s[1..] == u;
    assert TrimStart(s) == s;
  }

  /** `parseInt` inverts `DecimalString`. */
  lemma ParseIntRoundTrip(n: nat)
    ensures ParseInt(DecimalString(n)) == Some(n)
  {
    ParseIntOfDecimal(n, "");
    assert DecimalString(n) + "" == DecimalString(n);
  }

  lemma ParseMagnitudeOfDecimal(n: nat, rest: string)
    requires rest == [] || !IsDecimalDigit(rest[0])
    requires n == 0 && rest != [] ==> rest[0] != 'x' && rest[0] != 'X'
    ensures ParseMagnitude(DecimalString(n) + rest) == Some(n)
  {
    var d := DecimalString(n);
    var u := d + rest;
    assert u[0] == d[0];
    assert |u| >= 2 && u[0] == '0' ==> |d| == 1 && u[1] == rest[0];
    DigitRunOfDigits(d, rest);
    assert u[..|d|] == d;
  }

  lemma {:induction false} DigitRunOfDigits(d: string, rest: string)
    requires forall k | 0 <= k < |d| :: IsDecimalDigit(d[k])
    requires rest == [] || !IsDecimalDigit(rest[0])
    ensures DigitRunLength(d + rest, 10) == |d|
  {
    if d != [] {
      assert (d + rest)[1..] == d[1..] + rest;
      DigitRunOfDigits(d[1..], rest);
    } else {
      assert d + rest == rest;
    }
  }

  // -------------------------------------------------------------------------
  // Array.prototype.join

  /** `parts.join(sep)`. */
  function Join(parts: seq<string>, sep: string): (r: string)
    ensures |parts| == 1 ==> r == parts[0]
    ensures |parts| > 0 && parts[0] != [] ==> r != []
  {
    if |parts| == 0 then ""
    else if |parts| == 1 then parts[0]
    else Join(parts[..|parts| - 1], sep) + sep + parts[|parts| - 1]
  }

  /** A character missing from the separator and from every part is missing
      from the joined string. */
  lemma {:induction false} JoinAvoidsChar(parts: seq<string>, sep: string, c: char)
    requires c !in sep
    requires forall k | 0 <= k < |parts| :: c !in parts[k]
    ensures c !in Join(parts, sep)
  {
    if |parts| > 1 {
      JoinAvoidsChar(parts[..|parts| - 1], sep, c);
    }
  }

  // -------------------------------------------------------------------------
  // Regular expressions

  predicate IsAsciiAlnum(c: char) {
    'a' <= c <= 'z' || 'A' <= c <= 'Z' || '0' <= c <= '9'
  }

  /** `/^[a-zA-Z0-9]{3,10}$/.test(s)`. */
  predicate MatchesShortcodePattern(s: string) {
    3 <= |s| <= 10 && forall k | 0 <= k < |s| :: IsAsciiAlnum(s[k])
  }

  /** The characters that `.` in a regular expression does not match. */
  predicate IsLineTerminator(c: char) {
    c == '\n' || c == '\r' || c == '\U{2028}' || c == '\U{2029}'
  }

  /** `s` starts with `prefix`, followed by a character `.` matches. */
  predicate PrefixThenChar(s: string, prefix: string) {
    |s| > |prefix| && s[..|prefix|] == prefix && !IsLineTerminator(s[|prefix|])
  }

  /** `/^https?:\/\/.+/.test(s)`: the string begins with `http://` or
      `https://` and something other than a line break follows at once. */
  predicate MatchesHttpUrlPattern(s: string) {
    PrefixThenChar(s, "http://") || PrefixThenChar(s, "https://")
  }
}

=== FILE: logger.dfy ===
/** The frontend's logging client: the input validation, the normalised record
    `log` posts, and the five helpers that fix the level. The POST itself is
    outside the model; what it answered (or `None` when it threw) is a
    parameter. */
module FrontendLogger {
  import opened Wrappers
  import opened JsText

  const Stacks: seq<string> := ["backend", "frontend"]
  const Levels: seq<string> := ["debug", "info", "warn", "error", "fatal"]

  /** The packages a `frontend` log may name; `backend` logs may name any. */
  const FrontendPackages: seq<string> :=
    ["api", "component", "hook", "page", "state", "style", "auth", "config", "middleware", "utils"]

  /** The error `validateInputs` throws. */
  datatype LogError =
    | InvalidStack(stack: string)
    | InvalidLevel(level: string)
    | PackageNotAllowed(packageName: string)

  /** `validateInputs(stack, level, packageName)`: the checks run in the order
      stack, level, package, and the first that fails names the error. The
      comparisons are case-sensitive. */
  function ValidateInputs(stack: string, level: string, packageName: string): (r: Option<LogError>)
    ensures r.None? <==>
      && stack in Stacks && level in Levels
      && (stack == "frontend" ==> packageName in FrontendPackages)
    ensures r.Some? && r.value.InvalidStack? <==> stack !in Stacks
    ensures r.Some? && r.value.InvalidLevel? <==> stack in Stacks && level !in Levels
    ensures r.Some? && r.value.PackageNotAllowed? <==>
      stack == "frontend" && level in Levels && packageName !in FrontendPackages
    ensures r.Some? ==> r.value in {InvalidStack(stack), InvalidLevel(level), PackageNotAllowed(packageName)}
  {
    if stack !in Stacks then Some(InvalidStack(stack))
    else if level !in Levels then Some(InvalidLevel(level))
    else if stack == "frontend" && packageName !in FrontendPackages then Some(PackageNotAllowed(packageName))
    else None
  }

  /** A backend log passes with any package at all. */
  lemma BackendAcceptsAnyPackage(level: string, packageName: string)
    requires level in Levels
    ensures ValidateInputs("backend", level, packageName).None?
  {
  }

  /** The body `log` posts. */
  datatype LogRecord = LogRecord(stack: string, level: string, packageName: string, message: string)

  /** What the POST resolved with. */
  datatype Response = Response(status: int, data: string)

  /** What one call of `log` did: the record it posted, if any, and the value
      its promise resolves to (`response.data` on a 200, else nothing). */
  datatype LogOutcome = LogOutcome(posted: Option<LogRecord>, returned: Option<string>)

  /** `log(stack, level, packageName, message)`. It never throws: a
      validation failure is caught before anything is posted, and a failed
      POST (`response == None`) is caught as well. */
  function Log(stack: string, level: string, packageName: string, message: string,
               response: Option<Response>): (o: LogOutcome)
    ensures o.posted.None? <==> ValidateInputs(stack, level, packageName).Some?
    ensures o.posted.Some? ==>
      && o.posted.value.stack == LowerCase(stack)
      && o.posted.value.level == LowerCase(level)
      && o.posted.value.packageName == LowerCase(packageName)
      && o.posted.value.message == message
    ensures o.returned.Some? <==> o.posted.Some? && response.Some? && response.value.status == 200
    ensures o.returned.Some? ==> o.returned.value == response.value.data
  {
    if ValidateInputs(stack, level, packageName).Some? then LogOutcome(None, None)
    else
      var record := LogRecord(LowerCase(stack), LowerCase(level), LowerCase(packageName), message);
      var returned := if response.Some? && response.value.status == 200 then Some(response.value.data) else None;
      LogOutcome(Some(record), returned)
  }

  /** None of the listed names has an upper-case letter, so lower-casing
      leaves each of them as it is. */
  lemma ListedNamesAreLowerCase(name: string)
    requires name in Stacks || name in Levels || name in FrontendPackages
    ensures LowerCase(name) == name
  {
    if name in Stacks {
      StacksHaveNoUpper();
      NoneHasUpperMember(Stacks, name);
    } else if name in Levels {
      LevelsHaveNoUpper();
      NoneHasUpperMember(Levels, name);
    } else {
      PackagesHaveNoUpper();
      NoneHasUpperMember(FrontendPackages, name);
    }
    LowerCaseOfNoUpper(name);
  }

  lemma StacksHaveNoUpper()
    ensures NoneHasUpper(Stacks)
  {
  }

  lemma LevelsHaveNoUpper()
    ensures NoneHasUpper(Levels)
  {
    var a, b := ["debug", "info"], ["warn", "error", "fatal"];
    assert Levels == a + b;
    ShortLevelsHaveNoUpper();
    LongLevelsHaveNoUpper();
    NoneHasUpperConcat(a, b);
  }

  lemma ShortLevelsHaveNoUpper()
    ensures NoneHasUpper(["debug", "info"])
  {
  }

  lemma LongLevelsHaveNoUpper()
    ensures NoneHasUpper(["warn", "error", "fatal"])
  {
  }

  lemma PackagesHaveNoUpper()
    ensures NoneHasUpper(FrontendPackages)
  {
    var a, b, c, d := ["api", "component"], ["hook", "page", "state"], ["style", "auth", "config"],
                      ["middleware", "utils"];
    assert FrontendPackages == a + (b + (c + d));
    PackagesHaveNoUpperA();
    PackagesHaveNoUpperB();
    PackagesHaveNoUpperC();
    PackagesHaveNoUpperD();
    NoneHasUpperConcat(c, d);
    NoneHasUpperConcat(b, c + d);
    NoneHasUpperConcat(a, b + (c + d));
  }

  lemma PackagesHaveNoUpperA()
    ensures NoneHasUpper(["api", "component"])
  {
  }

  lemma PackagesHaveNoUpperB()
    ensures NoneHasUpper(["hook", "page", "state"])
  {
  }

  lemma PackagesHaveNoUpperC()
    ensures NoneHasUpper(["style", "auth", "config"])
  {
  }

  lemma PackagesHaveNoUpperD()
    ensures NoneHasUpper(["middleware", "utils"])
  {
  }

  /** No name of the list has an upper-case letter, checked name by name. */
  predicate NoneHasUpper(names: seq<string>) {
    names == [] || (HasNoUpper(names[0]) && NoneHasUpper(names[1..]))
  }

  lemma {:induction false} NoneHasUpperConcat(a: seq<string>, b: seq<string>)
    requires NoneHasUpper(a) && NoneHasUpper(b)
    ensures NoneHasUpper(a + b)
  {
    if a == [] {
      assert a + b == b;
    } else {
      assert (a + b)[0] == a[0];
      assert (a + b)[1..] == a[1..] + b;
      NoneHasUpperConcat(a[1..], b);
    }
  }

  lemma {:induction false} NoneHasUpperMember(names: seq<string>, name: string)
    requires NoneHasUpper(names) && name in names
    ensures HasNoUpper(name)
  {
    if names[0] != name {
      assert name in names[1..];
      NoneHasUpperMember(names[1..], name);
    }
  }

  /** Validation happens before lower-casing and is case-sensitive, so the
      stack and the level reach the record as given; a frontend package does
      too, and only a backend package can change. */
  lemma PostedRecordKeepsValidatedFields(stack: string, level: string, packageName: string, message: string,
                                         response: Option<Response>)
    requires ValidateInputs(stack, level, packageName).None?
    ensures Log(stack, level, packageName, message, response).posted.Some?
    ensures var rec := Log(stack, level, packageName, message, response).posted.value;
      && rec.stack == stack && rec.level == level
      && rec.stack in Stacks && rec.level in Levels
      && (stack == "frontend" ==> rec.packageName == packageName && rec.packageName in FrontendPackages)
  {
    ListedNamesAreLowerCase(stack);
    ListedNamesAreLowerCase(level);
    if stack == "frontend" {
      ListedNamesAreLowerCase(packageName);
    }
  }

  /** A capitalised stack is rejected, though lower-casing would have made
      it valid. */
  lemma CapitalisedStackRejected(level: string, packageName: string)
    ensures ValidateInputs("Backend", level, packageName) == Some(InvalidStack("Backend"))
  {
    assert "Backend" != "backend";
    assert "Backend" != "frontend";
  }

  // -------------------------------------------------------------------------
  // The level helpers

  /** What `log` does at a listed level: the level check passes, and a
      posted record carries the stack exactly as given. */
  lemma LogAtListedLevel(stack: string, level: string, packageName: string, message: string,
                         response: Option<Response>)
    requires level in Levels
    ensures var o := Log(stack, level, packageName, message, response);
      && (o.posted.None? <==> stack !in Stacks || (stack == "frontend" && packageName !in FrontendPackages))
      && (o.posted.Some? ==> o.posted.value.stack == stack && o.posted.value.level == level)
  {
    ListedNamesAreLowerCase(level);
    if Log(stack, level, packageName, message, response).posted.Some? {
      ListedNamesAreLowerCase(stack);
    }
  }

  /** `info(stack, packageName, message)`: `log` at level `info`, which always
      passes the level check. */
  function Info(stack: string, packageName: string, message: string, response: Option<Response>): (o: LogOutcome)
    ensures o.posted.None? <==> stack !in Stacks || (stack == "frontend" && packageName !in FrontendPackages)
    ensures o.posted.Some? ==>
      && o.posted.value.stack == LowerCase(stack) && o.posted.value.stack == stack
      && o.posted.value.level == "info"
      && o.posted.value.packageName == LowerCase(packageName)
      && o.posted.value.message == message
    ensures o.returned.Some? <==> o.posted.Some? && response.Some? && response.value.status == 200
    ensures o.returned.Some? ==> o.returned.value == response.value.data
  {
    LogAtListedLevel(stack, "info", packageName, message, response);
    Log(stack, "info", packageName, message, response)
  }

  /** `warn(stack, packageName, message)`: `log` at level `warn`. */
  function Warn(stack: string, packageName: string, message: string, response: Option<Response>): (o: LogOutcome)
    ensures o.posted.None? <==> stack !in Stacks || (stack == "frontend" && packageName !in FrontendPackages)
    ensures o.posted.Some? ==>
      && o.posted.value.stack == LowerCase(stack) && o.posted.value.stack == stack
      && o.posted.value.level == "warn"
      && o.posted.value.packageName == LowerCase(packageName)
      && o.posted.value.message == message
    ensures o.returned.Some? <==> o.posted.Some? && response.Some? && response.value.status == 200
    ensures o.returned.Some? ==> o.returned.value == response.value.data
  {
    LogAtListedLevel(stack, "warn", packageName, message, response);
    Log(stack, "warn", packageName, message, response)
  }

  /** `error(stack, packageName, message)`: `log` at level `error`. */
  function Error(stack: string, packageName: string, message: string, response: Option<Response>): (o: LogOutcome)
    ensures o.posted.None? <==> stack !in Stacks || (stack == "frontend" && packageName !in FrontendPackages)
    ensures o.posted.Some? ==>
      && o.posted.value.stack == LowerCase(stack) && o.posted.value.stack == stack
      && o.posted.value.level == "error"
      && o.posted.value.packageName == LowerCase(packageName)
      && o.posted.value.message == message
    ensures o.returned.Some? <==> o.posted.Some? && response.Some? && response.value.status == 200
    ensures o.returned.Some? ==> o.returned.value == response.value.data
  {
    LogAtListedLevel(stack, "error", packageName, message, response);
    Log(stack, "error", packageName, message, response)
  }

  /** `debug(stack, packageName, message)`: `log` at level `debug`. */
  function Debug(stack: string, packageName: string, message: string, response: Option<Response>): (o: LogOutcome)
    ensures o.posted.None? <==> stack !in Stacks || (stack == "frontend" && packageName !in FrontendPackages)
    ensures o.posted.Some? ==>
      && o.posted.value.stack == LowerCase(stack) && o.posted.value.stack == stack
      && o.posted.value.level == "debug"
      && o.posted.value.packageName == LowerCase(packageName)
      && o.posted.value.message == message
    ensures o.returned.Some? <==> o.posted.Some? && response.Some? && response.value.status == 200
    ensures o.returned.Some? ==> o.returned.value == response.value.data
  {
    LogAtListedLevel(stack, "debug", packageName, message, response);
    Log(stack, "debug", packageName, message, response)
  }

  /** `fatal(stack, packageName, message)`: `log` at level `fatal`. */
  function Fatal(stack: string, packageName: string, message: string, response: Option<Response>): (o: LogOutcome)
    ensures o.posted.None? <==> stack !in Stacks || (stack == "frontend" && packageName !in FrontendPackages)
    ensures o.posted.Some? ==>
      && o.posted.value.stack == LowerCase(stack) && o.posted.value.stack == stack
      && o.posted.value.level == "fatal"
      && o.posted.value.packageName == LowerCase(packageName)
      && o.posted.value.message == message
    ensures o.returned.Some? <==> o.posted.Some? && response.Some? && response.value.status == 200
    ensures o.returned.Some? ==> o.returned.value == response.value.data
  {
    LogAtListedLevel(stack, "fatal", packageName, message, response);
    Log(stack, "fatal", packageName, message, response)
  }
}

=== FILE: statistics_page.dfy ===
/** The statistics page of the frontend: how a click's location is shown, and
    the guard that trims the typed shortcode before asking the backend. The
    request goes straight to the backend model's statistics handler; the
    network between them is not modelled. */
module StatisticsPage {
  import opened Wrappers
  import opened JsText
  import opened UrlModel
  import opened UrlService
  import opened UrlController

  const UnknownLocation := "Unknown"
  const BlankShortcodeMessage := "Please enter a shortcode"
  const LoadFailedMessage := "Failed to load statistics"

  /** `parts.filter(Boolean)` on strings: the non-empty ones, in order. */
  function NonEmpty(parts: seq<string>): (r: seq<string>)
    ensures |r| <= |parts|
    ensures forall k | 0 <= k < |r| :: r[k] != ""
    ensures forall p :: p in r <==> p in parts && p != ""
    ensures r == [] <==> forall k | 0 <= k < |parts| :: parts[k] == ""
  {
    if parts == [] then []
    else
      assert parts == [parts[0]] + parts[1..];
      (if parts[0] != "" then [parts[0]] else []) + NonEmpty(parts[1..])
  }

  /** `filter` keeps order: filtering a concatenation concatenates the
      filtered halves. */
  lemma {:induction false} NonEmptyConcat(a: seq<string>, b: seq<string>)
    ensures NonEmpty(a + b) == NonEmpty(a) + NonEmpty(b)
  {
    if a == [] {
      assert a + b == b;
    } else {
      assert (a + b)[0] == a[0];
      assert (a + b)[1..] == a[1..] + b;
      NonEmptyConcat(a[1..], b);
    }
  }

  /** A single field is kept exactly when it is non-empty. */
  lemma NonEmptySingle(p: string)
    ensures NonEmpty([p]) == if p != "" then [p] else []
  {
    assert [p][1..] == [];
  }

  /** The three location fields are kept in the order city, region, country,
      each exactly when it is non-empty. */
  lemma NonEmptyOfThree(city: string, region: string, country: string)
    ensures NonEmpty([city, region, country]) ==
      (if city != "" then [city] else []) + (if region != "" then [region] else [])
      + (if country != "" then [country] else [])
  {
    var tail := [region, country];
    calc {
      NonEmpty([city, region, country]);
      { assert [city, region, country] == [city] + tail; }
      NonEmpty([city] + tail);
      { NonEmptyConcat([city], tail); }
      NonEmpty([city]) + NonEmpty(tail);
      { assert tail == [region] + [country]; NonEmptyConcat([region], [country]); }
      NonEmpty([city]) + (NonEmpty([region]) + NonEmpty([country]));
      { NonEmptySingle(city); NonEmptySingle(region); NonEmptySingle(country); }
      (if city != "" then [city] else []) + ((if region != "" then [region] else [])
      + (if country != "" then [country] else []));
    }
  }

  /** `getLocationString(location)`: the non-empty fields among city, region
      and country, in that order, joined with ", "; "Unknown" when there is
      no location or every field is empty. */
  function LocationString(location: Option<Location>): (s: string)
    ensures s != ""
    ensures location.None? ==> s == UnknownLocation
    ensures location.Some? ==>
      var parts := NonEmpty([location.value.city, location.value.region, location.value.country]);
      && (parts == [] ==> s == UnknownLocation)
      && (parts != [] ==> s == Join(parts, ", "))
  {
    match location
    case None => UnknownLocation
    case Some(loc) =>
      var parts := NonEmpty([loc.city, loc.region, loc.country]);
      if |parts| > 0 then Join(parts, ", ") else UnknownLocation
  }

  /** Whichever fields are present, they are shown in the order city,
      region, country. */
  lemma LocationStringInOrder(loc: Location)
    ensures var parts := (if loc.city != "" then [loc.city] else []) + (if loc.region != "" then [loc.region] else [])
                         + (if loc.country != "" then [loc.country] else []);
      LocationString(Some(loc)) == if parts == [] then UnknownLocation else Join(parts, ", ")
  {
    NonEmptyOfThree(loc.city, loc.region, loc.country);
  }

  /** Three parts joined: each separator sits between two parts. */
  lemma JoinThree(a: string, b: string, c: string, sep: string)
    ensures Join([a, b, c], sep) == a + sep + b + sep + c
  {
    assert [a, b, c][..2] == [a, b];
    assert [a, b][..1] == [a];
  }

  /** A location the backend recorded has all three fields, so the page shows
      them all: "city, region, country". */
  lemma RecordedLocationShowsAllFields(lookup: Option<Geo>)
    ensures var loc := LocationFromLookup(lookup);
      LocationString(Some(loc)) == loc.city + ", " + loc.region + ", " + loc.country
  {
    var loc := LocationFromLookup(lookup);
    var fields := [loc.city, loc.region, loc.country];
    assert NonEmpty(fields) == fields by {
      assert LocationKnown(loc);
      assert fields[1..] == [loc.region, loc.country];
      assert fields[1..][1..] == [loc.country];
      assert fields[1..][1..][1..] == [];
      assert NonEmpty(fields[1..][1..]) == [loc.country];
      assert NonEmpty(fields[1..]) == [loc.region, loc.country];
    }
    JoinThree(loc.city, loc.region, loc.country, ", ");
  }

  /** A click whose lookup failed is shown as "Unknown, Unknown, Unknown", not
      as the single "Unknown" the page keeps for missing locations. */
  lemma FailedLookupShownThreeTimes()
    ensures LocationString(Some(LocationFromLookup(None))) == "Unknown, Unknown, Unknown"
  {
    RecordedLocationShowsAllFields(None);
  }

  /** Only the city known: the city alone. */
  lemma CityOnlyShowsCity(city: string)
    requires city != ""
    ensures LocationString(Some(Location("", "", city))) == city
  {
    var fields := [city, "", ""];
    assert fields[1..] == ["", ""];
    assert fields[1..][1..] == [""];
    assert fields[1..][1..][1..] == [];
    assert NonEmpty(fields) == [city];
  }

  // -------------------------------------------------------------------------
  // handleGetStatistics

  /** The guard: a shortcode that is blank after trimming is refused with a
      message; otherwise the trimmed shortcode is what gets requested. */
  function StatisticsRequest(input: string): (r: Result<string, string>)
    ensures r.Err? <==> AllWhitespace(input)
    ensures r.Err? ==> r.error == BlankShortcodeMessage
    ensures r.Ok? ==> r.value == Trim(input) && |r.value| > 0
    ensures r.Ok? ==> !IsJsWhitespace(r.value[0]) && !IsJsWhitespace(r.value[|r.value| - 1])
  {
    var code := Trim(input);
    assert |code| == 0 <==> AllWhitespace(input);
    if |code| == 0 then Err(BlankShortcodeMessage) else Ok(code)
  }

  /** Whitespace typed around a shortcode is dropped: the shortcode itself is
      requested. */
  lemma PaddedShortcodeRequested(before: string, code: string, after: string)
    requires AllWhitespace(before) && AllWhitespace(after)
    requires MatchesShortcodePattern(code)
    ensures StatisticsRequest(before + code + after) == Ok(code)
  {
    assert !IsJsWhitespace(code[0]) && !IsJsWhitespace(code[|code| - 1]) by {
      assert IsAsciiAlnum(code[0]) && IsAsciiAlnum(code[|code| - 1]);
    }
    TrimOfPadded(before, code, after);
  }

  /** Asking again with what was requested asks for the same shortcode. */
  lemma StatisticsRequestIdempotent(input: string)
    requires StatisticsRequest(input).Ok?
    ensures StatisticsRequest(StatisticsRequest(input).value) == StatisticsRequest(input)
  {
    TrimIdempotent(input);
  }

  // -------------------------------------------------------------------------
  // The request path

  /** The frontend's `getUrlStatistics` puts the code into
      `${baseURL}/shorturls/${shortcode}` without encoding it, so the browser
      reads a `?` in it as the start of a query and a `#` as the start of a
      fragment: only the text before the first of them is sent as the path. */
  function PathPart(code: string): (p: string)
    ensures |p| <= |code| && p == code[..|p|]
    ensures forall k | 0 <= k < |p| :: p[k] != '?' && p[k] != '#'
    ensures |p| < |code| ==> code[|p|] == '?' || code[|p|] == '#'
    decreases |code|
  {
    if |code| == 0 || code[0] == '?' || code[0] == '#' then []
    else [code[0]] + PathPart(code[1..])
  }

  /** A character that reaches the route parameter as it was typed: not a
      control character (the URL parser drops tabs and line breaks), not a
      path separator (`/`, and `\`, which the URL parser reads as `/`), not
      `%` (Express decodes escapes in the parameter), and not one of the two
      delimiters above. Any other character is percent-encoded by the
      browser where needed and decoded back by Express. */
  predicate PathPlain(c: char) {
    c >= ' ' && c != '/' && c != '\\' && c != '%' && c != '?' && c != '#'
  }

  /** A path part that fills the `:shortcode` segment as it is: non-empty,
      not a dot segment, and made of plain characters only. */
  predicate SingleSegment(p: string) {
    |p| > 0 && p != "." && p != ".." && forall k | 0 <= k < |p| :: PathPlain(p[k])
  }

  /** A path part that no route of the backend matches: a `/` that is not its
      last character splits it into segments, so neither `/shorturls/:shortcode`
      nor `/:shortcode` applies (a trailing `/` alone would still be matched).
      Otherwise only plain characters, and no `.` that the URL parser could
      read as a dot segment. */
  predicate SeveralSegments(p: string) {
    && (exists k | 0 <= k < |p| - 1 :: p[k] == '/')
    && (forall k | 0 <= k < |p| :: p[k] == '/' || (PathPlain(p[k]) && p[k] != '.'))
  }

  /** The backend route a statistics request for `code` reaches. */
  datatype Route =
    | StatisticsRoute(shortcode: string)  // `/shorturls/:shortcode`, with the parameter
    | NoRoute                             // the catch-all `*` of the application
    | OtherPath                           // any other path: not modelled

  function RouteOf(code: string): (route: Route)
    ensures SingleSegment(PathPart(code)) <==> route.StatisticsRoute?
    ensures route.StatisticsRoute? ==> route.shortcode == PathPart(code)
    ensures SeveralSegments(PathPart(code)) <==> route.NoRoute?
  {
    var p := PathPart(code);
    if SingleSegment(p) then StatisticsRoute(p)
    else if SeveralSegments(p) then
      assert !SingleSegment(p) by {
        var k :| 0 <= k < |p| - 1 && p[k] == '/';
        assert !PathPlain(p[k]);
      }
      NoRoute
    else OtherPath
  }

  /** The reply of the application's catch-all route (`app.use('*', ...)`). */
  const RouteNotFoundMessage := "Route not found"

  /** A code without `?` or `#` is sent whole as the path. */
  lemma PathPartOfPlainCode(code: string)
    requires forall k | 0 <= k < |code| :: code[k] != '?' && code[k] != '#'
    ensures PathPart(code) == code
  {
  }

  /** Whatever follows a `?` is sent as a query string, not as part of the
      path. */
  lemma {:induction false} PathPartStopsAtQuery(code: string, query: string)
    requires forall k | 0 <= k < |code| :: code[k] != '?' && code[k] != '#'
    ensures PathPart(code + "?" + query) == code
    decreases |code|
  {
    if |code| > 0 {
      assert (code + "?" + query)[1..] == code[1..] + "?" + query;
      PathPartStopsAtQuery(code[1..], query);
      assert [code[0]] + code[1..] == code;
    } else {
      assert code + "?" + query == ['?'] + query;
    }
  }

  /** Every code of the custom-shortcode format is sent whole, as one
      segment. */
  lemma PatternCodeIsSingleSegment(code: string)
    requires MatchesShortcodePattern(code)
    ensures PathPart(code) == code && SingleSegment(code)
  {
    assert forall k | 0 <= k < |code| :: PathPlain(code[k]) by {
      forall k | 0 <= k < |code|
        ensures PathPlain(code[k])
      {
        assert IsAsciiAlnum(code[k]);
      }
    }
    PathPartOfPlainCode(code);
  }

  /** What the page shows: the statistics last loaded and an error line. */
  datatype PageState = PageState(stats: Option<Statistics>, error: string)

  /** `handleGetStatistics` against the backend at time `now`: the guard's
      message leaves the loaded statistics in place; a 200 shows the new
      statistics; an error reply clears them and shows the server's
      message, or a fallback when it sent none. The request goes to the
      route the trimmed code's path part selects; `None` stands for a path
      this model does not follow (see `RouteOf`). */
  function GetStatistics(page: PageState, input: string, store: Store, now: int): (next: Option<PageState>)
    ensures AllWhitespace(input) ==> next == Some(page.(error := BlankShortcodeMessage))
    ensures var sent := PathPart(Trim(input));
      !AllWhitespace(input) && SingleSegment(sent) && CastShortcode(sent) in store ==>
        next == Some(PageState(Some(GetUrlStatistics(store, sent, now).value), ""))
    ensures var sent := PathPart(Trim(input));
      !AllWhitespace(input) && SingleSegment(sent) && CastShortcode(sent) !in store ==>
        next == Some(PageState(None, NotFound.Message()))
    ensures !AllWhitespace(input) && SeveralSegments(PathPart(Trim(input))) ==>
      next == Some(PageState(None, RouteNotFoundMessage))
    ensures next.None? <==>
      !AllWhitespace(input) && !SingleSegment(PathPart(Trim(input))) && !SeveralSegments(PathPart(Trim(input)))
  {
    match StatisticsRequest(input)
    case Err(message) => Some(page.(error := message))
    case Ok(code) =>
      match RouteOf(code)
      case OtherPath => None
      case NoRoute => Some(PageState(None, RouteNotFoundMessage))
      case StatisticsRoute(sent) =>
        match StatisticsHandler(store, sent, now)
        case Json(_, stats) => Some(PageState(Some(stats), ""))
        case ErrorBody(_, message) => Some(PageState(None, if message != "" then message else LoadFailedMessage))
        case RedirectTo(_) => Some(PageState(None, LoadFailedMessage))
  }

  /** The page depends on the typed entry only through the route its trimmed
      code selects. */
  lemma SameRouteSamePage(page: PageState, input: string, input': string, store: Store, now: int)
    requires !AllWhitespace(input) && !AllWhitespace(input')
    requires RouteOf(Trim(input)) == RouteOf(Trim(input'))
    ensures GetStatistics(page, input, store, now) == GetStatistics(page, input', store, now)
  {
  }

  /** A trimmed entry of a code and a query: the code, then `?`, then the
      query. Trimming leaves it as it is, and its path part is the code. */
  lemma CodeWithQueryRoute(code: string, query: string)
    requires MatchesShortcodePattern(code)
    requires query == [] || !IsJsWhitespace(query[|query| - 1])
    ensures !AllWhitespace(code + "?" + query) && !AllWhitespace(code)
    ensures RouteOf(Trim(code + "?" + query)) == RouteOf(Trim(code))
  {
    CodeWithQueryUnpadded(code, query);
    UnpaddedTrim(code + "?" + query);
    UnpaddedTrim(code);
    PatternCodeIsSingleSegment(code);
    PathPartStopsAtQuery(code, query);
  }

  lemma CodeWithQueryUnpadded(code: string, query: string)
    requires MatchesShortcodePattern(code)
    requires query == [] || !IsJsWhitespace(query[|query| - 1])
    ensures var input := code + "?" + query;
      && !IsJsWhitespace(input[0]) && !IsJsWhitespace(input[|input| - 1])
      && !IsJsWhitespace(code[0]) && !IsJsWhitespace(code[|code| - 1])
  {
    var input := code + "?" + query;
    assert IsAsciiAlnum(code[0]) && IsAsciiAlnum(code[|code| - 1]);
    assert input[0] == code[0];
    if query == [] {
      assert input[|input| - 1] == '?';
    } else {
      assert input[|input| - 1] == query[|query| - 1];
    }
  }

  /** A string that neither starts nor ends with whitespace is its own
      trim, and is not blank. */
  lemma UnpaddedTrim(s: string)
    requires |s| > 0 && !IsJsWhitespace(s[0]) && !IsJsWhitespace(s[|s| - 1])
    ensures Trim(s) == s && !AllWhitespace(s)
  {
    TrimOfPadded([], s, []);
    assert [] + s + [] == s;
  }

  /** A query typed after a code is not part of the request path: the page
      shows what it shows for the code alone. */
  lemma QueryAfterCodeIgnored(page: PageState, code: string, query: string, store: Store, now: int)
    requires MatchesShortcodePattern(code)
    requires query == [] || !IsJsWhitespace(query[|query| - 1])
    ensures GetStatistics(page, code + "?" + query, store, now) == GetStatistics(page, code, store, now)
  {
    CodeWithQueryRoute(code, query);
    SameRouteSamePage(page, code + "?" + query, code, store, now);
  }

  /** A code with a `/` inside reaches no route: the page shows the catch-all
      route's message. */
  lemma SlashedCodeNotRouted(page: PageState, store: Store, now: int)
    ensures GetStatistics(page, "a/b", store, now) == Some(PageState(None, RouteNotFoundMessage))
  {
    SlashedCodeRoute();
  }

  lemma SlashedCodeRoute()
    ensures !AllWhitespace("a/b") && RouteOf(Trim("a/b")) == NoRoute
  {
    var input := "a/b";
    assert !IsJsWhitespace(input[0]) && !IsJsWhitespace(input[2]);
    UnpaddedTrim(input);
    PathPartOfPlainCode(input);
    assert SeveralSegments(input) by {
      assert input[1] == '/';
    }
  }

  /** Looking up a link just created, with spaces typed around its code,
      shows its statistics with no clicks. */
  lemma NewLinkStatisticsShown(store: Store, config: Config, request: CreateRequest, now: int, created: int, later: int,
                               isUrl: string -> bool, gen: nat -> ShortId, page: PageState, pad: string)
    requires CreateShortUrl(store, config, request, now, created, isUrl, gen).Ok?
    requires Truthy(request.shortcode) && AllWhitespace(pad)
    ensures var c := CreateShortUrl(store, config, request, now, created, isUrl, gen).value;
      var next := GetStatistics(page, pad + c.shortcode + pad, c.store, later);
      && next.Some?
      && next.value.error == ""
      && next.value.stats.Some?
      && next.value.stats.value.shortcode == c.shortcode
      && next.value.stats.value.clicks == []
  {
    var c := CreateShortUrl(store, config, request, now, created, isUrl, gen).value;
    PaddedShortcodeRequested(pad, c.shortcode, pad);
    PatternCodeIsSingleSegment(c.shortcode);
    CastOfPatternCode(c.shortcode);
  }
}

=== FILE: url_controller.dfy ===
/** The HTTP boundary of the backend: the ordered substring table that turns an
    error message into a status code, the fallbacks for the client address
    and the referrer, and the reply each handler sends. */
module UrlController {
  import opened Wrappers
  import opened JsText
  import opened UrlModel
  import opened UrlService

  /** `getErrorStatusCode(message)`: the first key the message contains, in
      the order "not found", "expired", "already exists", "invalid"/"valid",
      decides the status; a message with none of them is a server error.
      Matching is case-sensitive. */
  function ErrorStatusCode(message: string): (status: int)
    ensures status in {404, 410, 409, 400, 500}
    ensures status == 404 <==> Contains(message, "not found")
    ensures status == 410 <==> !Contains(message, "not found") && Contains(message, "expired")
    ensures status == 409 <==>
      && !Contains(message, "not found") && !Contains(message, "expired")
      && Contains(message, "already exists")
    ensures status == 400 <==>
      && !Contains(message, "not found") && !Contains(message, "expired")
      && !Contains(message, "already exists") && Contains(message, "valid")
    ensures status == 500 <==>
      && !Contains(message, "not found") && !Contains(message, "expired")
      && !Contains(message, "already exists") && !Contains(message, "valid")
  {
    InvalidIsSubsumedByValid(message);
    if Contains(message, "not found") then 404
    else if Contains(message, "expired") then 410
    else if Contains(message, "already exists") then 409
    else if Contains(message, "invalid") || Contains(message, "valid") then 400
    else 500
  }

  /** Every message containing "invalid" also contains "valid", so the first
      half of the 400 test never decides anything. */
  lemma InvalidIsSubsumedByValid(message: string)
    ensures Contains(message, "invalid") ==> Contains(message, "valid")
  {
    if Contains(message, "invalid") {
      ContainsKeySuffix(message, "invalid", 2);
      assert "invalid"[2..] == "valid";
    }
  }

  /** Matching is case-sensitive: capitalised keys fall through to 500. */
  lemma CapitalisedNotFoundIs500()
    ensures ErrorStatusCode("Not " + "Found") == 500
  {
    var m := "Not " + "Found";
    assert 'f' !in m && 'x' !in m && 'v' !in m;
    NotContainsMissingChar(m, "not found", 4);
    NotContainsMissingChar(m, "expired", 1);
    NotContainsMissingChar(m, "already exists", 9);
    NotContainsMissingChar(m, "valid", 0);
  }

  lemma UpperCaseExpiredIs500()
    ensures ErrorStatusCode("EXPIRED") == 500
  {
    assert 'n' !in "EXPIRED" && 'e' !in "EXPIRED" && 'a' !in "EXPIRED" && 'v' !in "EXPIRED";
    NotContainsMissingChar("EXPIRED", "not found", 0);
    NotContainsMissingChar("EXPIRED", "expired", 0);
    NotContainsMissingChar("EXPIRED", "already exists", 0);
    NotContainsMissingChar("EXPIRED", "valid", 0);
  }

  /** "Invalid" contains "valid", so only the all-capitals spelling escapes
      the 400 test. */
  lemma UpperCaseInvalidIs500()
    ensures ErrorStatusCode("INVALID") == 500
  {
    assert 'n' !in "INVALID" && 'e' !in "INVALID" && 'a' !in "INVALID" && 'v' !in "INVALID";
    NotContainsMissingChar("INVALID", "not found", 0);
    NotContainsMissingChar("INVALID", "expired", 0);
    NotContainsMissingChar("INVALID", "already exists", 0);
    NotContainsMissingChar("INVALID", "valid", 0);
  }

  lemma CapitalisedInvalidIs400()
    ensures ErrorStatusCode("Invalid") == 400
  {
    assert 'f' !in "Invalid" && 'x' !in "Invalid";
    NotContainsMissingChar("Invalid", "not found", 4);
    NotContainsMissingChar("Invalid", "expired", 1);
    NotContainsMissingChar("Invalid", "already exists", 9);
    assert "Invalid" == "In" + "valid" + "";
    ContainsInfix("In", "valid", "");
  }

  /** "not found" wins over every other key the message may contain. */
  lemma NotFoundTakesPrecedence(a: string, b: string)
    ensures ErrorStatusCode(a + "not found" + b) == 404
  {
    ContainsInfix(a, "not found", b);
  }

  // -------------------------------------------------------------------------
  // The statuses the service's own errors receive

  /** The characters that rule keys out: "not found" needs an 'f', "expired"
      and "already exists" need an 'x', "valid" needs a 'v'. */
  lemma InvalidUrlMessageLacks(c: char)
    requires c == 'f' || c == 'x'
    ensures c !in InvalidUrl.Message()
  {
  }

  lemma InvalidUrlStatus()
    ensures ErrorStatusCode(InvalidUrl.Message()) == 400
  {
    var m := InvalidUrl.Message();
    InvalidUrlMessageLacks('f');
    InvalidUrlMessageLacks('x');
    NotContainsMissingChar(m, "not found", 4);
    NotContainsMissingChar(m, "expired", 1);
    NotContainsMissingChar(m, "already exists", 9);
    assert m == ("Please " + "provide a ") + "valid" + " URL";
    ContainsInfix("Please " + "provide a ", "valid", " URL");
  }

  lemma ShortcodeFormatMessageLacks(c: char)
    requires c == 'f' || c == 'x' || c == 'v'
    ensures c !in ShortcodeFormat.Message()
  {
  }

  /** The shortcode-format message contains none of the keys, so a client's
      malformed shortcode is answered with a server error. */
  lemma ShortcodeFormatStatus()
    ensures ErrorStatusCode(ShortcodeFormat.Message()) == 500
  {
    var m := ShortcodeFormat.Message();
    ShortcodeFormatMessageLacks('f');
    ShortcodeFormatMessageLacks('x');
    ShortcodeFormatMessageLacks('v');
    NotContainsMissingChar(m, "not found", 4);
    NotContainsMissingChar(m, "expired", 1);
    NotContainsMissingChar(m, "already exists", 9);
    NotContainsMissingChar(m, "valid", 0);
  }

  lemma ShortcodeTakenStatus()
    ensures ErrorStatusCode(ShortcodeTaken.Message()) == 409
  {
    TakenMessageLacksNotFound();
    TakenMessageLacksExpired();
    TakenMessageHasAlreadyExists();
  }

  lemma TakenMessageLacksNotFound()
    ensures !Contains(ShortcodeTaken.Message(), "not found")
  {
    assert 'f' !in ShortcodeTaken.Message();
    NotContainsMissingChar(ShortcodeTaken.Message(), "not found", 4);
  }

  /** The only 'x' of the message is followed by 'i', not by the 'p' of
      "expired". */
  lemma TakenMessageLacksExpired()
    ensures !Contains(ShortcodeTaken.Message(), "expired")
  {
    TakenMessageAroundX();
    NotContainsUniqueChar(TakenHead, 'x', TakenTail, "expired", 1);
  }

  const TakenHead := "Shortcode " + "already e"
  const TakenTail := "ists" + ", please " + "choose " + "another"

  lemma TakenMessageAroundX()
    ensures ShortcodeTaken.Message() == TakenHead + ['x'] + TakenTail
    ensures 'x' !in TakenHead && 'x' !in TakenTail
  {
    assert 'x' !in TakenHead;
    assert 'x' !in TakenTail;
  }

  lemma TakenMessageHasAlreadyExists()
    ensures Contains(ShortcodeTaken.Message(), "already exists")
  {
    assert ShortcodeTaken.Message() == "Shortcode " + "already exists" + (", please " + "choose " + "another");
    ContainsInfix("Shortcode ", "already exists", ", please " + "choose " + "another");
  }

  lemma GenerationExhaustedMessageLacks(c: char)
    requires c == 'f' || c == 'x' || c == 'v'
    ensures c !in GenerationExhausted.Message()
  {
  }

  lemma GenerationExhaustedStatus()
    ensures ErrorStatusCode(GenerationExhausted.Message()) == 500
  {
    var m := GenerationExhausted.Message();
    GenerationExhaustedMessageLacks('f');
    GenerationExhaustedMessageLacks('x');
    GenerationExhaustedMessageLacks('v');
    NotContainsMissingChar(m, "not found", 4);
    NotContainsMissingChar(m, "expired", 1);
    NotContainsMissingChar(m, "already exists", 9);
    NotContainsMissingChar(m, "valid", 0);
  }

  lemma NotFoundStatus()
    ensures ErrorStatusCode(NotFound.Message()) == 404
  {
    assert NotFound.Message() == ("Short " + "URL ") + "not found" + "";
    ContainsInfix("Short " + "URL ", "not found", "");
  }

  lemma ExpiredStatus()
    ensures ErrorStatusCode(Expired.Message()) == 410
  {
    var m := Expired.Message();
    assert 'f' !in m;
    NotContainsMissingChar(m, "not found", 4);
    assert m == ("Short " + "URL " + "has ") + "expired" + "";
    ContainsInfix("Short " + "URL " + "has ", "expired", "");
  }

  /** Neither 'f' nor 'x' is a decimal digit. */
  lemma DecimalStringLacks(n: nat)
    ensures 'f' !in DecimalString(n) && 'x' !in DecimalString(n)
  {
  }

  /** Neither 'f' nor 'x' occurs in the text of a violation. */
  lemma ViolationTextLacks(v: Violation, c: char)
    requires c == 'f' || c == 'x'
    ensures c !in ViolationText(v)
  {
    match v
    case MissingOriginalUrl => MissingOriginalUrlTextLacks(c);
    case BadOriginalUrl => BadOriginalUrlTextLacks(c);
    case MissingShortcode => MissingShortcodeTextLacks(c);
    case MissingClickIp(i) => MissingClickIpTextLacks(i, c);
  }

  lemma MissingOriginalUrlTextLacks(c: char)
    requires c == 'f' || c == 'x'
    ensures c !in ViolationText(MissingOriginalUrl)
  {
  }

  lemma BadOriginalUrlTextLacks(c: char)
    requires c == 'f' || c == 'x'
    ensures c !in ViolationText(BadOriginalUrl)
  {
    BadUrlHeadLacks(c);
    BadUrlTailLacks(c);
    assert ViolationText(BadOriginalUrl) == BadUrlHead + BadUrlTail;
  }

  const BadUrlHead := "originalUrl: " + "Please " + "provide a " + "valid "
  const BadUrlTail := "URL " + "starting " + "with " + "http:// " + "or " + "https://"

  lemma BadUrlHeadLacks(c: char)
    requires c == 'f' || c == 'x'
    ensures c !in BadUrlHead
  {
  }

  lemma BadUrlTailLacks(c: char)
    requires c == 'f' || c == 'x'
    ensures c !in BadUrlTail
  {
  }

  lemma MissingShortcodeTextLacks(c: char)
    requires c == 'f' || c == 'x'
    ensures c !in ViolationText(MissingShortcode)
  {
  }

  lemma MissingClickIpTextLacks(i: nat, c: char)
    requires c == 'f' || c == 'x'
    ensures c !in ViolationText(MissingClickIp(i))
  {
    DecimalStringLacks(i);
    var tail := ".ipAddress: " + "Path " + "`ipAddress` " + "is " + "required.";
    assert c !in tail;
    assert ViolationText(MissingClickIp(i)) == "clicks." + DecimalString(i) + tail;
  }

  /** Neither 'f' nor 'x' occurs in that list. */
  lemma ViolationListLacks(vs: seq<Violation>, c: char)
    requires c == 'f' || c == 'x'
    ensures c !in ViolationList(vs)
  {
    var texts := seq(|vs|, k requires 0 <= k < |vs| => ViolationText(vs[k]));
    forall k | 0 <= k < |texts|
      ensures c !in texts[k]
    {
      ViolationTextLacks(vs[k], c);
    }
    JoinAvoidsChar(texts, ", ", c);
  }

  /** A rejected save is answered 400, through the "valid" of its
      "validation failed" prefix. */
  lemma SchemaInvalidStatus(vs: seq<Violation>)
    ensures ErrorStatusCode(SchemaInvalid(vs).Message()) == 400
  {
    SchemaMessageLacksNotFound(vs);
    SchemaMessageLacksX(vs);
    NotContainsMissingChar(SchemaInvalid(vs).Message(), "expired", 1);
    NotContainsMissingChar(SchemaInvalid(vs).Message(), "already exists", 9);
    SchemaMessageHasValid(vs);
  }

  lemma SchemaMessageLacksX(vs: seq<Violation>)
    ensures 'x' !in SchemaInvalid(vs).Message()
  {
    ViolationListLacks(vs, 'x');
    assert 'x' !in ValidationPrefix;
  }

  /** The only 'f' of the message is the one of "failed", followed by 'a',
      not by the 'o' of "found". */
  lemma SchemaMessageLacksNotFound(vs: seq<Violation>)
    ensures !Contains(SchemaInvalid(vs).Message(), "not found")
  {
    var a, b := "Url " + "validation ", "ailed: ";
    PrefixAroundF();
    var body := ViolationList(vs);
    ViolationListLacks(vs, 'f');
    SplitPrefix(ValidationPrefix, a, 'f', b, body);
    NotContainsUniqueChar(a, 'f', b + body, "not found", 4);
  }

  /** The prefix around its one 'f'. */
  lemma PrefixAroundF()
    ensures ValidationPrefix == ("Url " + "validation ") + ['f'] + "ailed: "
    ensures 'f' !in "Url " + "validation " && 'f' !in "ailed: "
  {
  }

  lemma SplitPrefix(p: string, a: string, c: char, b: string, body: string)
    requires p == a + [c] + b
    ensures p + body == a + [c] + (b + body)
  {
  }

  lemma SchemaMessageHasValid(vs: seq<Violation>)
    ensures Contains(SchemaInvalid(vs).Message(), "valid")
  {
    assert ValidationPrefix == "Url " + "valid" + ("ation " + "failed: ");
    ContainsInfix("Url ", "valid", "ation " + "failed: ");
    ContainsOfPrefix(ValidationPrefix, ViolationList(vs), "valid");
  }

  /** The status of every error the service raises, read off its message. */
  lemma ServiceErrorStatuses(e: ServiceError)
    ensures ErrorStatusCode(e.Message()) == AsWrittenStatus(e)
  {
    match e
    case InvalidUrl => InvalidUrlStatus();
    case ShortcodeFormat => ShortcodeFormatStatus();
    case ShortcodeTaken => ShortcodeTakenStatus();
    case GenerationExhausted => GenerationExhaustedStatus();
    case SchemaInvalid(vs) => SchemaInvalidStatus(vs);
    case NotFound => NotFoundStatus();
    case Expired => ExpiredStatus();
  }

  /** The status each service error ends up with under the substring table. */
  function AsWrittenStatus(e: ServiceError): int {
    match e
    case InvalidUrl => 400
    case ShortcodeFormat => 500
    case ShortcodeTaken => 409
    case GenerationExhausted => 500
    case SchemaInvalid(_) => 400
    case NotFound => 404
    case Expired => 410
  }

  /** Errors the client causes by what it sends or asks for. */
  predicate IsClientError(e: ServiceError) {
    !e.GenerationExhausted?
  }

  /** The status table the message matching evidently aims at: every error
      the client causes is a 4xx, and only an exhausted generator is a 500.
      It differs from the substring table only on the shortcode-format
      error. */
  function StatusForError(e: ServiceError): (status: int)
    ensures IsClientError(e) <==> 400 <= status < 500
    ensures !IsClientError(e) ==> status == 500
    ensures e.ShortcodeFormat? ==> status == 400
    ensures !e.ShortcodeFormat? ==> status == ErrorStatusCode(e.Message())
  {
    ServiceErrorStatuses(e);
    match e
    case InvalidUrl => 400
    case ShortcodeFormat => 400
    case ShortcodeTaken => 409
    case GenerationExhausted => 500
    case SchemaInvalid(_) => 400
    case NotFound => 404
    case Expired => 410
  }

  /** The discrepancy: a client-caused error that the substring table sends
      out as a server error. */
  lemma ShortcodeFormatIsMisclassified()
    ensures IsClientError(ShortcodeFormat)
    ensures ErrorStatusCode(ShortcodeFormat.Message()) == 500
    ensures StatusForError(ShortcodeFormat) == 400
  {
    ShortcodeFormatStatus();
  }

  // -------------------------------------------------------------------------
  // Request fields

  /** `req.ip || req.connection.remoteAddress || '127.0.0.1'`. */
  function ClientIp(ip: Option<string>, remoteAddress: Option<string>): (r: string)
    ensures r != ""
    ensures Truthy(ip) ==> r == ip.value
    ensures !Truthy(ip) && Truthy(remoteAddress) ==> r == remoteAddress.value
    ensures !Truthy(ip) && !Truthy(remoteAddress) ==> r == LoopbackAddress
  {
    if Truthy(ip) then ip.value
    else if Truthy(remoteAddress) then remoteAddress.value
    else LoopbackAddress
  }

  const LoopbackAddress := "127.0.0.1"

  /** `req.get('Referrer') || req.get('Referer')`: the second header is
      consulted only when the first is missing or empty. */
  function RequestReferrer(referrer: Option<string>, referer: Option<string>): (r: Option<string>)
    ensures Truthy(referrer) ==> r == referrer
    ensures !Truthy(referrer) ==> r == referer
  {
    if Truthy(referrer) then referrer else referer
  }

  /** The referrer a click records is the first non-empty header, or
      "direct". */
  lemma ClickReferrerFromHeaders(referrer: Option<string>, referer: Option<string>)
    ensures var r := ClickReferrer(RequestReferrer(referrer, referer));
      && (Truthy(referrer) ==> r == referrer.value)
      && (!Truthy(referrer) && Truthy(referer) ==> r == referer.value)
      && (!Truthy(referrer) && !Truthy(referer) ==> r == DefaultReferrer)
  {
  }

  // -------------------------------------------------------------------------
  // Replies

  /** What a handler sends: a JSON body with a status, a redirect, or an
      error body `{ error: message }` (its timestamp is not modelled). */
  datatype Reply<T> =
    | Json(status: int, body: T)
    | RedirectTo(location: string)
    | ErrorBody(status: int, error: string)

  /** The catch block shared by the handlers: `{ error: message }` under
      `getErrorStatusCode(message)`. Every error the service raises gets its
      as-written status, which is a 4xx for every client-caused error but
      the shortcode-format one. */
  function ErrorReply<T>(e: ServiceError): (reply: Reply<T>)
    ensures reply.ErrorBody? && reply.error == e.Message()
    ensures reply.status == ErrorStatusCode(e.Message())
    ensures reply.status == AsWrittenStatus(e)
    ensures !e.ShortcodeFormat? ==> reply.status == StatusForError(e)
  {
    ServiceErrorStatuses(e);
    ErrorBody(ErrorStatusCode(e.Message()), e.Message())
  }

  /** The catch block with the corrected status table: the status is a 4xx
      exactly for the errors the client causes. */
  function CorrectedErrorReply<T>(e: ServiceError): (reply: Reply<T>)
    ensures reply.ErrorBody? && reply.error == e.Message()
    ensures 400 <= reply.status < 500 <==> IsClientError(e)
    ensures e.ShortcodeFormat? ==> reply.status == 400
  {
    ErrorBody(StatusForError(e), e.Message())
  }

  /** The corrected reply differs from the as-written one only on the
      shortcode-format error, where 500 becomes 400. */
  lemma CorrectedReplyDiffersOnlyOnFormat<T>(e: ServiceError)
    ensures CorrectedErrorReply<T>(e) != ErrorReply<T>(e) <==> e.ShortcodeFormat?
    ensures e.ShortcodeFormat? ==> ErrorReply<T>(e).status == 500 && CorrectedErrorReply<T>(e).status == 400
  {
    ServiceErrorStatuses(e);
  }

  /** `POST /shorturls`: 201 with `{ shortLink, expiry }`, or the error. */
  function CreateHandler(store: Store, config: Config, request: CreateRequest, now: int, created: int,
                         isUrl: string -> bool, gen: nat -> ShortId): (out: (Store, Reply<CreateResponse>))
    ensures var r := CreateShortUrl(store, config, request, now, created, isUrl, gen);
      && (r.Ok? ==> out.0 == r.value.store && out.1 == Json(201, r.value.response))
      && (r.Err? ==> out.0 == store && out.1 == ErrorReply(r.error))
  {
    match CreateShortUrl(store, config, request, now, created, isUrl, gen)
    case Ok(c) => (c.store, Json(201, c.response))
    case Err(e) => (store, ErrorReply(e))
  }

  /** A rejected creation leaves the store alone: a bad URL is answered 400,
      a malformed custom shortcode 500 (its message matches no key), and a
      taken one 409. */
  lemma CreateHandlerRejections(store: Store, config: Config, request: CreateRequest, now: int, created: int,
                                isUrl: string -> bool, gen: nat -> ShortId)
    ensures var out := CreateHandler(store, config, request, now, created, isUrl, gen);
      && (!Truthy(request.url) || !isUrl(request.url.value) ==>
            out == (store, ErrorBody(400, InvalidUrl.Message())))
      && (Truthy(request.url) && isUrl(request.url.value) && Truthy(request.shortcode)
          && !MatchesShortcodePattern(request.shortcode.value) ==>
            out == (store, ErrorBody(500, ShortcodeFormat.Message())))
      && (Truthy(request.url) && isUrl(request.url.value) && Truthy(request.shortcode)
          && MatchesShortcodePattern(request.shortcode.value) && request.shortcode.value in store ==>
            out == (store, ErrorBody(409, ShortcodeTaken.Message())))
  {
  }

  /** `GET /:shortcode`: a redirect to the stored URL, or the error. */
  function RedirectHandler(store: Store, shortcode: string, ip: Option<string>, remoteAddress: Option<string>,
                           referrer: Option<string>, referer: Option<string>, now: int,
                           lookup: Option<Geo>): (out: (Store, Reply<()>))
    ensures var r := RedirectToOriginal(store, shortcode, ClientIp(ip, remoteAddress),
                                        RequestReferrer(referrer, referer), now, lookup);
      && (r.Ok? ==> out.0 == r.value.store && out.1 == RedirectTo(r.value.originalUrl))
      && (r.Err? ==> out.0 == store && out.1 == ErrorReply(r.error))
  {
    match RedirectToOriginal(store, shortcode, ClientIp(ip, remoteAddress),
                             RequestReferrer(referrer, referer), now, lookup)
    case Ok(v) => (v.store, RedirectTo(v.originalUrl))
    case Err(e) => (store, ErrorReply(e))
  }

  /** `GET /shorturls/:shortcode`: 200 with the statistics of the record
      filed under the trimmed code, or 404. */
  function StatisticsHandler(store: Store, shortcode: string, now: int): (reply: Reply<Statistics>)
    ensures CastShortcode(shortcode) in store ==> reply == Json(200, GetUrlStatistics(store, shortcode, now).value)
    ensures CastShortcode(shortcode) in store && StoreInvariant(store) ==>
      reply.Json? && reply.body.shortcode == CastShortcode(shortcode)
    ensures CastShortcode(shortcode) !in store ==> reply == ErrorBody(404, NotFound.Message())
  {
    match GetUrlStatistics(store, shortcode, now)
    case Ok(s) => Json(200, s)
    case Err(e) => ErrorReply(e)
  }

  /** Because the client address always falls back to a non-empty value, a
      redirect on a well-formed store fails only for an unknown or expired
      code; otherwise it sends the client to the stored URL. The code is
      looked up as the trim setter casts it, so ` abc` finds `abc`. */
  lemma RedirectHandlerOutcomes(store: Store, shortcode: string, ip: Option<string>, remoteAddress: Option<string>,
                                referrer: Option<string>, referer: Option<string>, now: int, lookup: Option<Geo>)
    requires StoreInvariant(store)
    ensures var out := RedirectHandler(store, shortcode, ip, remoteAddress, referrer, referer, now, lookup);
      var key := CastShortcode(shortcode);
      && (out.1.RedirectTo? <==> key in store && !IsExpired(store[key], now))
      && (out.1.RedirectTo? ==> out.1.location == store[key].originalUrl)
  {
    var key := CastShortcode(shortcode);
    if key in store && !IsExpired(store[key], now) {
      var clientIp := ClientIp(ip, remoteAddress);
      var ref := RequestReferrer(referrer, referer);
      RedirectFailsOnlyWhenMissingOrExpired(store, shortcode, clientIp, ref, now, lookup);
    }
  }

  /** An unknown code answers 404 and an expired one 410, with the service's
      message, and the store is left as it was; whitespace around the code
      does not make it unknown. */
  lemma RedirectHandlerErrors(store: Store, shortcode: string, ip: Option<string>, remoteAddress: Option<string>,
                              referrer: Option<string>, referer: Option<string>, now: int, lookup: Option<Geo>)
    ensures var out := RedirectHandler(store, shortcode, ip, remoteAddress, referrer, referer, now, lookup);
      var key := CastShortcode(shortcode);
      && (key !in store ==> out == (store, ErrorBody(404, NotFound.Message())))
      && (key in store && IsExpired(store[key], now) ==> out == (store, ErrorBody(410, Expired.Message())))
  {
  }

  /** Express hands over the decoded path segment, so `GET /%20abc` and
      `GET /shorturls/%09abc` carry a padded code; both handlers answer it as
      they answer the code itself. */
  lemma PaddedCodeHandledAsCode(store: Store, before: string, code: string, after: string,
                                ip: Option<string>, remoteAddress: Option<string>,
                                referrer: Option<string>, referer: Option<string>, now: int, lookup: Option<Geo>)
    requires AllWhitespace(before) && AllWhitespace(after)
    requires code == [] || (!IsJsWhitespace(code[0]) && !IsJsWhitespace(code[|code| - 1]))
    ensures RedirectHandler(store, before + code + after, ip, remoteAddress, referrer, referer, now, lookup)
         == RedirectHandler(store, code, ip, remoteAddress, referrer, referer, now, lookup)
    ensures StatisticsHandler(store, before + code + after, now) == StatisticsHandler(store, code, now)
  {
    RedirectIgnoresPadding(store, before, code, after, ClientIp(ip, remoteAddress),
                           RequestReferrer(referrer, referer), now, lookup);
    StatisticsIgnorePadding(store, before, code, after, now);
  }

  /** The redirect handler keeps the store well formed. */
  lemma RedirectHandlerKeepsInvariant(store: Store, shortcode: string, ip: Option<string>, remoteAddress: Option<string>,
                                      referrer: Option<string>, referer: Option<string>, now: int, lookup: Option<Geo>)
    requires StoreInvariant(store)
    ensures StoreInvariant(RedirectHandler(store, shortcode, ip, remoteAddress, referrer, referer, now, lookup).0)
  {
    var clientIp := ClientIp(ip, remoteAddress);
    var ref := RequestReferrer(referrer, referer);
    if RedirectToOriginal(store, shortcode, clientIp, ref, now, lookup).Ok? {
      RedirectPreservesInvariant(store, shortcode, clientIp, ref, now, lookup);
    }
  }
}

=== FILE: url_model.dfy ===
/** The stored shape of a shortened URL: the Mongoose schema's fields and
    defaults, the validation `save` performs, `isExpired` and `addClick`.
    Times are integers counting milliseconds since the epoch. */
module UrlModel {
  import opened JsText

  const MillisPerMinute := 60000

  /** Schema default of `validityMinutes`. */
  const DefaultValidityMinutes := 30

  /** Schema default of a click's `referrer`. */
  const DefaultReferrer := "direct"

  /** Where a click came from, as far as the IP lookup could tell. */
  datatype Location = Location(country: string, region: string, city: string)

  /** One recorded visit of a short link. */
  datatype Click = Click(timestamp: int, referrer: string, ipAddress: string, location: Location)

  /** One document of the URL collection. */
  datatype UrlRecord = UrlRecord(
    originalUrl: string,
    shortcode: string,
    createdAt: int,
    expiresAt: int,
    validityMinutes: int,
    clicks: seq<Click>,
    totalClicks: int,
    isActive: bool)

  /** The collection, keyed by shortcode. */
  type Store = map<string, UrlRecord>

  /** The denormalised click counter agrees with the click history. */
  predicate ClickCountConsistent(r: UrlRecord) {
    r.totalClicks == |r.clicks|
  }

  /** `trim: true` on the shortcode path: the setter Mongoose runs on a
      shortcode both when it builds a document and when it casts a query
      filter such as `findOne({ shortcode })`. */
  function CastShortcode(code: string): string {
    Trim(code)
  }

  /** The setter changes nothing on a code without surrounding whitespace,
      and casting twice is casting once. */
  lemma CastShortcodeFixedPoints(code: string)
    ensures CastShortcode(code) == code <==> code == [] || (!IsJsWhitespace(code[0]) && !IsJsWhitespace(code[|code| - 1]))
    ensures CastShortcode(CastShortcode(code)) == CastShortcode(code)
  {
    if code != [] && !IsJsWhitespace(code[0]) && !IsJsWhitespace(code[|code| - 1]) {
      TrimOfPadded([], code, []);
      assert [] + code + [] == code;
    }
    TrimIdempotent(code);
  }

  /** A shortcode that matches the custom-shortcode pattern is cast to itself. */
  lemma CastOfPatternCode(code: string)
    requires MatchesShortcodePattern(code)
    ensures CastShortcode(code) == code
  {
    var c0, c1 := code[0], code[|code| - 1];
    assert IsAsciiAlnum(c0) && IsAsciiAlnum(c1);
    assert !IsJsWhitespace(c0) && !IsJsWhitespace(c1);
    TrimOfPadded([], code, []);
    assert [] + code + [] == code;
  }

  /** `new UrlModel({ originalUrl, shortcode, expiresAt, validityMinutes })`
      with the clock reading `createdAt` that the `Date.now` default takes
      while the document is built. The shortcode goes through the trim
      setter, and the other fields take their schema defaults: no clicks, a
      zero counter, active. */
  function NewRecord(originalUrl: string, shortcode: string, createdAt: int, expiresAt: int, validityMinutes: int): (r: UrlRecord)
    ensures ClickCountConsistent(r) && r.clicks == [] && r.isActive
    ensures r.createdAt == createdAt && r.expiresAt == expiresAt
    ensures r.originalUrl == originalUrl && r.shortcode == Trim(shortcode) && r.validityMinutes == validityMinutes
  {
    UrlRecord(originalUrl, CastShortcode(shortcode), createdAt, expiresAt, validityMinutes, [], 0, true)
  }

  /** `isExpired()` evaluated at time `now`: not yet at the expiry instant,
      already one millisecond later. */
  predicate IsExpired(r: UrlRecord, now: int): (expired: bool)
    ensures now == r.expiresAt ==> !expired
    ensures now == r.expiresAt + 1 ==> expired
  {
    now > r.expiresAt
  }

  /** Once a document has expired it stays expired. */
  lemma ExpiryIsPermanent(r: UrlRecord, earlier: int, later: int)
    requires earlier <= later && IsExpired(r, earlier)
    ensures IsExpired(r, later)
  {
  }

  /** Expiry is strict: a record still resolves at the instant it expires,
      and is expired from the next millisecond on. */
  lemma ExpiryIsStrict(r: UrlRecord)
    ensures !IsExpired(r, r.expiresAt)
    ensures forall now :: IsExpired(r, now) <==> now >= r.expiresAt + 1
  {
  }

  /** `addClick(click)`: the click goes at the end of the history, the counter
      goes up by one, and no other field changes. */
  function AddClick(r: UrlRecord, c: Click): (r': UrlRecord)
    ensures |r'.clicks| == |r.clicks| + 1
    ensures r'.clicks[..|r.clicks|] == r.clicks && r'.clicks[|r.clicks|] == c
    ensures r'.totalClicks == r.totalClicks + 1
    ensures r'.originalUrl == r.originalUrl && r'.shortcode == r.shortcode
    ensures r'.createdAt == r.createdAt && r'.expiresAt == r.expiresAt
    ensures r'.validityMinutes == r.validityMinutes && r'.isActive == r.isActive
    ensures ClickCountConsistent(r) ==> ClickCountConsistent(r')
  {
    r.(clicks := r.clicks + [c], totalClicks := r.totalClicks + 1)
  }

  // -------------------------------------------------------------------------
  // Validation on save

  /** A failed schema validator, in the order the schema declares the paths. */
  datatype Violation =
    | MissingOriginalUrl          // `required` on originalUrl
    | BadOriginalUrl              // the http(s) pattern validator on originalUrl
    | MissingShortcode            // `required` on shortcode
    | MissingClickIp(index: nat)  // `required` on clicks[index].ipAddress

  /** The `required` violations of the click sub-documents, numbered from
      `first`; there are none exactly when every click has an IP address. */
  function ClickViolations(clicks: seq<Click>, first: nat): (vs: seq<Violation>)
    ensures |vs| == 0 <==> forall k | 0 <= k < |clicks| :: clicks[k].ipAddress != ""
    decreases |clicks|
  {
    if clicks == [] then []
    else
      var rest := ClickViolations(clicks[1..], first + 1);
      assert forall k | 1 <= k < |clicks| :: clicks[k] == clicks[1..][k - 1];
      if clicks[0].ipAddress == "" then [MissingClickIp(first)] + rest
      else rest
  }

  /** Each click violation names a click without an IP address, by its
      position in the document. */
  lemma {:induction false} ClickViolationsAreMissingIps(clicks: seq<Click>, first: nat)
    ensures forall v | v in ClickViolations(clicks, first) ::
      v.MissingClickIp? && first <= v.index < first + |clicks| && clicks[v.index - first].ipAddress == ""
    decreases |clicks|
  {
    if clicks != [] {
      var rest := ClickViolations(clicks[1..], first + 1);
      ClickViolationsAreMissingIps(clicks[1..], first + 1);
      forall v | v in ClickViolations(clicks, first)
        ensures v.MissingClickIp? && first <= v.index < first + |clicks| && clicks[v.index - first].ipAddress == ""
      {
        if v in rest {
          assert clicks[v.index - first] == clicks[1..][v.index - (first + 1)];
        }
      }
    }
  }

  /** Every click without an IP address has its violation. */
  lemma {:induction false} MissingIpsAreClickViolations(clicks: seq<Click>, first: nat)
    ensures forall k | 0 <= k < |clicks| && clicks[k].ipAddress == "" ::
      MissingClickIp(first + k) in ClickViolations(clicks, first)
    decreases |clicks|
  {
    if clicks != [] {
      var rest := ClickViolations(clicks[1..], first + 1);
      MissingIpsAreClickViolations(clicks[1..], first + 1);
      forall k | 0 <= k < |clicks| && clicks[k].ipAddress == ""
        ensures MissingClickIp(first + k) in ClickViolations(clicks, first)
      {
        if k > 0 {
          assert clicks[k] == clicks[1..][k - 1];
          assert MissingClickIp((first + 1) + (k - 1)) in rest;
        }
      }
    }
  }

  /** Every validator of the schema that rejects `r`. A document saves exactly
      when the list is empty: its URL has the http(s) shape, its shortcode is
      not empty, and every click carries an IP address. */
  function Violations(r: UrlRecord): (vs: seq<Violation>)
    ensures vs == [] <==>
      && MatchesHttpUrlPattern(r.originalUrl)
      && r.shortcode != ""
      && forall k | 0 <= k < |r.clicks| :: r.clicks[k].ipAddress != ""
    ensures !MatchesHttpUrlPattern(r.originalUrl) ==> |vs| > 0 && vs[0] in {MissingOriginalUrl, BadOriginalUrl}
  {
    var urlViolations :=
      if r.originalUrl == "" then [MissingOriginalUrl]
      else if !MatchesHttpUrlPattern(r.originalUrl) then [BadOriginalUrl]
      else [];
    var codeViolations := if r.shortcode == "" then [MissingShortcode] else [];
    urlViolations + codeViolations + ClickViolations(r.clicks, 0)
  }

  /** The stored URLs of documents that saved all have the http(s) shape. */
  lemma SavedUrlsAreHttp(r: UrlRecord)
    requires Violations(r) == []
    ensures |r.originalUrl| > 7 && (r.originalUrl[..7] == "http://" || r.originalUrl[..8] == "https://")
  {
  }

  /** One violation as Mongoose words it, `path: message`. The literals are
      written in short pieces so that the verifier can reason about them. */
  function ViolationText(v: Violation): string {
    match v
    case MissingOriginalUrl =>
      "originalUrl: " + "Path " + "`originalUrl` " + "is " + "required."
    case BadOriginalUrl =>
      "originalUrl: " + "Please " + "provide a " + "valid " + "URL " + "starting " + "with "
      + "http:// " + "or " + "https://"
    case MissingShortcode =>
      "shortcode: " + "Path " + "`shortcode` " + "is " + "required."
    case MissingClickIp(i) =>
      "clicks." + DecimalString(i) + ".ipAddress: " + "Path " + "`ipAddress` " + "is " + "required."
  }

  const ValidationPrefix := "Url " + "validation " + "failed: "

  /** The message of the `ValidationError` that `save` rejects with. */
  function ValidationMessage(vs: seq<Violation>): string {
    ValidationPrefix + ViolationList(vs)
  }

  /** The violations' texts, in order, separated by ", ". */
  function ViolationList(vs: seq<Violation>): string {
    Join(seq(|vs|, k requires 0 <= k < |vs| => ViolationText(vs[k])), ", ")
  }
}

=== FILE: url_service.dfy ===
/** The URL workflow of the backend: creating a short link, resolving it while
    recording a click, and reporting statistics. The foreign pieces are
    parameters: the clock is `now`, `validator.isURL` is `isUrl`, the i-th
    call of `shortid.generate` is `gen(i)`, and what `geoip.lookup` returned
    for the client is `lookup`. */
module UrlService {
  import opened Wrappers
  import opened JsText
  import opened UrlModel

  /** How many generated candidates are tried before giving up. */
  const MaxAttempts := 5

  /** Generated shortcodes are cut to this many characters. */
  const GeneratedLength := 6

  const DefaultBaseUrl := "http://localhost:3001"

  /** Stands in for every location field the lookup could not supply. */
  const UnknownPlace := "Unknown"

  /** What the constructor reads from the environment. */
  datatype Config = Config(baseUrl: string, defaultValidity: int)

  /** The error the service throws, each with its fixed message. */
  datatype ServiceError =
    | InvalidUrl
    | ShortcodeFormat
    | ShortcodeTaken
    | GenerationExhausted
    | SchemaInvalid(violations: seq<Violation>)  // from `save`, passed through
    | NotFound
    | Expired
  {
    /** `error.message`. The literals are written in short pieces so that the
        verifier can reason about them. */
    function Message(): string {
      match this
      case InvalidUrl => "Please " + "provide a " + "valid" + " URL"
      case ShortcodeFormat =>
        "Shortcode " + "must be " + "alphanumeric " + "and 3-10 " + "characters " + "long"
      case ShortcodeTaken =>
        "Shortcode " + "already exists" + ", please " + "choose " + "another"
      case GenerationExhausted => "Unable " + "to generate " + "unique " + "shortcode"
      case SchemaInvalid(vs) => ValidationMessage(vs)
      case NotFound => "Short " + "URL " + "not found"
      case Expired => "Short " + "URL " + "has " + "expired"
    }
  }

  /** JavaScript truthiness of an optional string. */
  predicate Truthy(s: Option<string>) {
    s.Some? && s.value != ""
  }

  /** The constructor: `BASE_URL || 'http://localhost:3001'` and
      `parseInt(DEFAULT_VALIDITY_MINUTES) || 30`, where `None` is an unset
      variable. A zero or unparsable validity falls back to 30; a negative one
      is kept. */
  function ConfigFromEnvironment(baseUrlVar: Option<string>, validityVar: Option<string>): (c: Config)
    ensures c.baseUrl != ""
    ensures Truthy(baseUrlVar) ==> c.baseUrl == baseUrlVar.value
    ensures !Truthy(baseUrlVar) ==> c.baseUrl == DefaultBaseUrl
    ensures c.defaultValidity != 0
    ensures validityVar.None? ==> c.defaultValidity == DefaultValidityMinutes
    ensures validityVar.Some? && ParseInt(validityVar.value).Some? && ParseInt(validityVar.value).value != 0 ==>
      c.defaultValidity == ParseInt(validityVar.value).value
    ensures validityVar.Some? && (ParseInt(validityVar.value).None? || ParseInt(validityVar.value).value == 0) ==>
      c.defaultValidity == DefaultValidityMinutes
  {
    var baseUrl := if Truthy(baseUrlVar) then baseUrlVar.value else DefaultBaseUrl;
    var parsed := if validityVar.Some? then ParseInt(validityVar.value) else None;
    var validity := if parsed.Some? && parsed.value != 0 then parsed.value else DefaultValidityMinutes;
    Config(baseUrl, validity)
  }

  /** A decimal numeral in the environment sets the default validity. */
  lemma ConfigReadsDecimalValidity(baseUrlVar: Option<string>, n: nat)
    requires n > 0
    ensures ConfigFromEnvironment(baseUrlVar, Some(DecimalString(n))).defaultValidity == n
  {
    ParseIntRoundTrip(n);
  }

  /** Text that is no number parses to NaN, which is falsy: the default stays 30. */
  lemma ConfigNonNumericValidity(baseUrlVar: Option<string>)
    ensures ConfigFromEnvironment(baseUrlVar, Some("abc")).defaultValidity == DefaultValidityMinutes
  {
    assert forall k | 0 <= k < |"abc"| :: !IsDecimalDigit("abc"[k]);
  }

  /** The numeral `0` parses to a falsy zero: the default stays 30. */
  lemma ConfigZeroValidity(baseUrlVar: Option<string>)
    ensures ConfigFromEnvironment(baseUrlVar, Some("0")).defaultValidity == DefaultValidityMinutes
  {
    ParseIntRoundTrip(0);
    assert DecimalString(0) == "0";
  }

  /** A negative numeral, whatever follows its digits, is truthy and is kept as the default. */
  lemma ConfigNegativeValidity(baseUrlVar: Option<string>, n: nat, rest: string)
    requires n > 0
    requires rest == [] || !IsDecimalDigit(rest[0])
    ensures ConfigFromEnvironment(baseUrlVar, Some("-" + (DecimalString(n) + rest))).defaultValidity == -(n as int)
  {
    ParseIntOfNegativeDecimal(n, rest);
  }

  /** `validity || this.defaultValidity`: a missing or zero validity takes
      the default, any other number is kept, negative ones included. */
  function EffectiveValidity(validity: Option<int>, default: int): (minutes: int)
    ensures validity.Some? && validity.value != 0 ==> minutes == validity.value
    ensures validity.None? || validity.value == 0 ==> minutes == default
  {
    if validity.Some? && validity.value != 0 then validity.value else default
  }

  // -------------------------------------------------------------------------
  // Shortcode generation

  /** A character of the alphabet `shortid` generates from. */
  predicate IsShortIdChar(c: char) {
    IsAsciiAlnum(c) || c == '_' || c == '-'
  }

  /** What `shortid.generate()` can return: text over its alphabet. */
  type ShortId = s: string | forall k | 0 <= k < |s| :: IsShortIdChar(s[k])

  /** `shortid.generate().substring(0, 6)` on the `i`-th call: at most six
      characters, a prefix of what the generator produced. */
  function Candidate(gen: nat -> ShortId, i: nat): (c: string)
    ensures |c| <= GeneratedLength && |c| <= |gen(i)| && c == gen(i)[..|c|]
    ensures |c| == GeneratedLength || c == gen(i)
  {
    if |gen(i)| <= GeneratedLength then gen(i) else gen(i)[..GeneratedLength]
  }

  /** The trim setter leaves every candidate as it is: no character of the
      generator's alphabet is whitespace. */
  lemma CandidateIsCast(gen: nat -> ShortId, i: nat)
    ensures CastShortcode(Candidate(gen, i)) == Candidate(gen, i)
  {
    var c := Candidate(gen, i);
    if c != [] {
      assert IsShortIdChar(c[0]) && IsShortIdChar(c[|c| - 1]);
      assert !IsJsWhitespace(c[0]) && !IsJsWhitespace(c[|c| - 1]);
    }
    CastShortcodeFixedPoints(c);
  }

  /** The generator's loop from the (0-based) attempt `attempt` on: the first
      candidate that `findOne({ shortcode })` does not find, or
      `GenerationExhausted` when every remaining attempt up to `MaxAttempts`
      collides. The query's trim setter leaves a candidate as it is
      (`CandidateIsCast`), so the candidate itself is looked up. */
  function GenerateFrom(store: Store, gen: nat -> ShortId, attempt: nat): (r: Result<string, ServiceError>)
    requires attempt < MaxAttempts
    ensures r.Ok? ==> r.value !in store && |r.value| <= GeneratedLength
    ensures r.Ok? ==>
      exists i | attempt <= i < MaxAttempts ::
        && r.value == Candidate(gen, i)
        && forall j | attempt <= j < i :: Candidate(gen, j) in store
    ensures r.Err? <==> forall j | attempt <= j < MaxAttempts :: Candidate(gen, j) in store
    ensures r.Err? ==> r.error == GenerationExhausted
    decreases MaxAttempts - attempt
  {
    var c := Candidate(gen, attempt);
    if c !in store then Ok(c)
    else if attempt + 1 >= MaxAttempts then Err(GenerationExhausted)
    else GenerateFrom(store, gen, attempt + 1)
  }

  /** `generateUniqueShortcode`, with its do-while loop: it computes what
      `GenerateFrom` describes. */
  method GenerateUniqueShortcode(store: Store, gen: nat -> ShortId) returns (r: Result<string, ServiceError>)
    ensures r == GenerateFrom(store, gen, 0)
  {
    var attempts := 0;
    while true
      invariant 0 <= attempts < MaxAttempts
      invariant GenerateFrom(store, gen, 0) == GenerateFrom(store, gen, attempts)
      decreases MaxAttempts - attempts
    {
      var shortcode := Candidate(gen, attempts);
      attempts := attempts + 1;
      if shortcode !in store {
        return Ok(shortcode);
      }
      if attempts >= MaxAttempts {
        return Err(GenerationExhausted);
      }
    }
  }

  /** Lines 23-39 of `createShortUrl`: a truthy custom shortcode must match
      the pattern and be free; otherwise a code is generated. A code that
      matches the pattern has no whitespace, so the trim setter of the
      uniqueness query leaves it as it is. */
  function ResolveShortcode(store: Store, custom: Option<string>, gen: nat -> ShortId): (r: Result<string, ServiceError>)
    ensures r.Ok? ==> r.value !in store && CastShortcode(r.value) == r.value
    ensures Truthy(custom) && !MatchesShortcodePattern(custom.value) ==> r == Err(ShortcodeFormat)
    ensures Truthy(custom) && MatchesShortcodePattern(custom.value) && custom.value in store ==> r == Err(ShortcodeTaken)
    ensures Truthy(custom) ==> (r.Ok? <==> MatchesShortcodePattern(custom.value) && custom.value !in store)
    ensures Truthy(custom) && r.Ok? ==> r.value == custom.value
    ensures !Truthy(custom) ==> r == GenerateFrom(store, gen, 0)
  {
    if Truthy(custom) then
      var code := custom.value;
      if !MatchesShortcodePattern(code) then Err(ShortcodeFormat)
      else
        CastOfPatternCode(code);
        if CastShortcode(code) in store then Err(ShortcodeTaken)
        else Ok(code)
    else
      var r := GenerateFrom(store, gen, 0);
      assert r.Ok? ==> CastShortcode(r.value) == r.value by {
        if r.Ok? {
          var i :| 0 <= i < MaxAttempts && r.value == Candidate(gen, i);
          CandidateIsCast(gen, i);
        }
      }
      r
  }

  /** Three characters are enough, two are not, and a punctuation mark is
      refused wherever it sits. */
  lemma CustomShortcodeExamples(store: Store, gen: nat -> ShortId)
    ensures "abc" !in store ==> ResolveShortcode(store, Some("abc"), gen) == Ok("abc")
    ensures ResolveShortcode(store, Some("ab"), gen) == Err(ShortcodeFormat)
    ensures ResolveShortcode(store, Some("abc!23"), gen) == Err(ShortcodeFormat)
  {
    assert !IsAsciiAlnum("abc!23"[3]);
  }

  // -------------------------------------------------------------------------
  // createShortUrl

  /** The JSON body of a creation request; absent fields are `None`. */
  datatype CreateRequest = CreateRequest(url: Option<string>, validity: Option<int>, shortcode: Option<string>)

  /** `{ shortLink, expiry }`; the expiry stays a timestamp (no ISO text). */
  datatype CreateResponse = CreateResponse(shortLink: string, expiry: int)

  /** A successful creation: the new store, the code used, the response. */
  datatype Created = Created(store: Store, shortcode: string, response: CreateResponse)

  /** `createShortUrl(urlData)`. The clock is read twice: `now` is the
      `new Date()` the expiry is counted from (line 21), and `created` is
      the later reading the schema's `Date.now` default takes when the
      document is built (line 40), after the awaited lookups in between. */
  function CreateShortUrl(store: Store, config: Config, request: CreateRequest, now: int, created: int,
                          isUrl: string -> bool, gen: nat -> ShortId): (r: Result<Created, ServiceError>)
    ensures !Truthy(request.url) || !isUrl(request.url.value) ==> r == Err(InvalidUrl)
    ensures Truthy(request.url) && isUrl(request.url.value) ==>
      var resolved := ResolveShortcode(store, request.shortcode, gen);
      resolved.Err? ==> r == Err(resolved.error)
    ensures r.Ok? ==>
      && Truthy(request.url) && isUrl(request.url.value) && MatchesHttpUrlPattern(request.url.value)
      && r.value.shortcode !in store && r.value.shortcode != ""
      && CastShortcode(r.value.shortcode) == r.value.shortcode
      && (Truthy(request.shortcode) ==> r.value.shortcode == request.shortcode.value)
      && (!Truthy(request.shortcode) ==>
            exists i | 0 <= i < MaxAttempts :: r.value.shortcode == Candidate(gen, i))
    ensures r.Ok? ==>
      var code := r.value.shortcode;
      var minutes := EffectiveValidity(request.validity, config.defaultValidity);
      var expiresAt := now + minutes * MillisPerMinute;
      && r.value.store == store[code := NewRecord(request.url.value, code, created, expiresAt, minutes)]
      && r.value.response == CreateResponse(config.baseUrl + "/" + code, expiresAt)
    ensures r.Err? && r.error.SchemaInvalid? ==>
      Truthy(request.url) && (!MatchesHttpUrlPattern(request.url.value) || !Truthy(request.shortcode))
    ensures Truthy(request.url) && isUrl(request.url.value) && ResolveShortcode(store, request.shortcode, gen).Ok? ==>
      var code := ResolveShortcode(store, request.shortcode, gen).value;
      && (r.Ok? <==> MatchesHttpUrlPattern(request.url.value) && code != "")
      && (r.Ok? ==> r.value.shortcode == code)
      && (r.Err? ==> r.error == SchemaInvalid(
            (if MatchesHttpUrlPattern(request.url.value) then [] else [BadOriginalUrl])
            + (if code == "" then [MissingShortcode] else [])))
  {
    if !Truthy(request.url) || !isUrl(request.url.value) then Err(InvalidUrl)
    else
      var url := request.url.value;
      var minutes := EffectiveValidity(request.validity, config.defaultValidity);
      var expiresAt := now + minutes * MillisPerMinute;
      match ResolveShortcode(store, request.shortcode, gen)
      case Err(e) => Err(e)
      case Ok(code) =>
        var record := NewRecord(url, code, created, expiresAt, minutes);
        var violations := Violations(record);
        assert record.shortcode == code && record.clicks == [];
        assert violations == (if MatchesHttpUrlPattern(url) then [] else [BadOriginalUrl])
                             + (if code == "" then [MissingShortcode] else []);
        if violations != [] then Err(SchemaInvalid(violations))
        else
          // the document is saved under its shortcode as the trim setter left it
          Ok(Created(store[record.shortcode := record], record.shortcode,
                     CreateResponse(config.baseUrl + "/" + code, expiresAt)))
  }

  /** A request for `https://example.com` under the free custom shortcode
      `abc` creates that link, valid for 10 minutes. */
  lemma CreateExample(store: Store, config: Config, now: int, created: int, isUrl: string -> bool, gen: nat -> ShortId)
    requires isUrl("https://example.com") && "abc" !in store
    ensures var r := CreateShortUrl(store, config, CreateRequest(Some("https://example.com"), Some(10), Some("abc")),
                                    now, created, isUrl, gen);
      && r.Ok? && r.value.shortcode == "abc"
      && r.value.response == CreateResponse(config.baseUrl + "/abc", now + 10 * MillisPerMinute)
  {
    var url := "https://example.com";
    assert url[..8] == "https://" && !IsLineTerminator(url[8]);
    assert MatchesHttpUrlPattern(url);
    CustomShortcodeExamples(store, gen);
  }

  /** Creation adds exactly one record and leaves every other one as it was. */
  lemma CreateAddsExactlyOne(store: Store, config: Config, request: CreateRequest, now: int, created: int,
                             isUrl: string -> bool, gen: nat -> ShortId)
    requires CreateShortUrl(store, config, request, now, created, isUrl, gen).Ok?
    ensures var c := CreateShortUrl(store, config, request, now, created, isUrl, gen).value;
      && c.store.Keys == store.Keys + {c.shortcode}
      && |c.store| == |store| + 1
      && forall code | code in store :: c.store[code] == store[code]
  {
    var c := CreateShortUrl(store, config, request, now, created, isUrl, gen).value;
    assert c.store.Keys == store.Keys + {c.shortcode};
    assert c.shortcode !in store.Keys;
  }

  // -------------------------------------------------------------------------
  // redirectToOriginal

  /** The fields of a `geoip.lookup` result; `None` or `""` is a missing field. */
  datatype Geo = Geo(country: Option<string>, region: Option<string>, city: Option<string>)

  /** `field || 'Unknown'`. */
  function OrUnknown(field: Option<string>): (s: string)
    ensures s != ""
    ensures Truthy(field) ==> s == field.value
    ensures !Truthy(field) ==> s == UnknownPlace
  {
    if Truthy(field) then field.value else UnknownPlace
  }

  /** `getLocationFromIp`, given what the lookup returned (`None` also stands
      for a lookup that threw). Every field comes out non-empty. */
  function LocationFromLookup(lookup: Option<Geo>): (loc: Location)
    ensures LocationKnown(loc)
    ensures lookup.None? ==> loc == Location(UnknownPlace, UnknownPlace, UnknownPlace)
    ensures lookup.Some? ==>
      && loc.country == OrUnknown(lookup.value.country)
      && loc.region == OrUnknown(lookup.value.region)
      && loc.city == OrUnknown(lookup.value.city)
  {
    match lookup
    case Some(geo) => Location(OrUnknown(geo.country), OrUnknown(geo.region), OrUnknown(geo.city))
    case None => Location(UnknownPlace, UnknownPlace, UnknownPlace)
  }

  predicate LocationKnown(loc: Location) {
    loc.country != "" && loc.region != "" && loc.city != ""
  }

  /** `referrer || 'direct'`. */
  function ClickReferrer(referrer: Option<string>): (r: string)
    ensures r != ""
    ensures Truthy(referrer) ==> r == referrer.value
    ensures !Truthy(referrer) ==> r == DefaultReferrer
  {
    if Truthy(referrer) then referrer.value else DefaultReferrer
  }

  /** A successful redirect: the new store and the URL to redirect to. */
  datatype Redirected = Redirected(store: Store, originalUrl: string)

  /** The click a redirect records. */
  function NewClick(now: int, clientIp: string, referrer: Option<string>, lookup: Option<Geo>): Click {
    Click(now, ClickReferrer(referrer), clientIp, LocationFromLookup(lookup))
  }

  /** `redirectToOriginal(shortcode, clientIp, referrer)` at time `now`. The
      query `findOne({ shortcode })` casts the code through the trim setter,
      so the record found is the one filed under the trimmed code. */
  function RedirectToOriginal(store: Store, shortcode: string, clientIp: string, referrer: Option<string>,
                              now: int, lookup: Option<Geo>): (r: Result<Redirected, ServiceError>)
    ensures var key := CastShortcode(shortcode);
      key !in store ==> r == Err(NotFound)
    ensures var key := CastShortcode(shortcode);
      key in store && IsExpired(store[key], now) ==> r == Err(Expired)
    ensures var key := CastShortcode(shortcode);
      r.Ok? ==>
        && key in store && !IsExpired(store[key], now)
        && r.value.originalUrl == store[key].originalUrl
        && r.value.store == store[key := AddClick(store[key], NewClick(now, clientIp, referrer, lookup))]
    ensures var key := CastShortcode(shortcode);
      (key in store && !IsExpired(store[key], now) && Violations(store[key]) == [] && clientIp != "") ==> r.Ok?
    ensures var key := CastShortcode(shortcode);
      r.Err? && r.error.SchemaInvalid? ==> key in store && (clientIp == "" || Violations(store[key]) != [])
  {
    var key := CastShortcode(shortcode);
    if key !in store then Err(NotFound)
    else
      var record := store[key];
      if IsExpired(record, now) then Err(Expired)
      else
        var updated := AddClick(record, NewClick(now, clientIp, referrer, lookup));
        var violations := Violations(updated);
        if violations != [] then
          assert updated.clicks[|record.clicks|].ipAddress == clientIp;
          Err(SchemaInvalid(violations))
        else
          Ok(Redirected(store[key := updated], record.originalUrl))
  }

  /** Whitespace around a shortcode in the path does not matter: the trim
      setter of the query drops it, so ` abc` redirects like `abc`. */
  lemma RedirectIgnoresPadding(store: Store, before: string, code: string, after: string, clientIp: string,
                               referrer: Option<string>, now: int, lookup: Option<Geo>)
    requires AllWhitespace(before) && AllWhitespace(after)
    requires code == [] || (!IsJsWhitespace(code[0]) && !IsJsWhitespace(code[|code| - 1]))
    ensures RedirectToOriginal(store, before + code + after, clientIp, referrer, now, lookup)
         == RedirectToOriginal(store, code, clientIp, referrer, now, lookup)
  {
    TrimOfPadded(before, code, after);
    CastShortcodeFixedPoints(code);
  }

  // -------------------------------------------------------------------------
  // getUrlStatistics

  /** A click as the statistics show it: the IP address is left out. */
  datatype ClickView = ClickView(timestamp: int, referrer: string, location: Location)

  datatype Statistics = Statistics(
    shortcode: string,
    originalUrl: string,
    createdAt: int,
    expiresAt: int,
    totalClicks: int,
    isExpired: bool,
    validityMinutes: int,
    clicks: seq<ClickView>)

  function ViewOf(c: Click): ClickView {
    ClickView(c.timestamp, c.referrer, c.location)
  }

  /** `getUrlStatistics(shortcode)` at time `now`: a read-only projection of
      the record filed under the trimmed code, whose expiry flag is computed
      at call time. */
  function GetUrlStatistics(store: Store, shortcode: string, now: int): (r: Result<Statistics, ServiceError>)
    ensures r.Err? <==> CastShortcode(shortcode) !in store
    ensures r.Err? ==> r.error == NotFound
    ensures r.Ok? ==>
      var rec := store[CastShortcode(shortcode)];
      && r.value.shortcode == rec.shortcode && r.value.originalUrl == rec.originalUrl
      && r.value.createdAt == rec.createdAt && r.value.expiresAt == rec.expiresAt
      && r.value.totalClicks == rec.totalClicks && r.value.validityMinutes == rec.validityMinutes
      && (r.value.isExpired <==> now > rec.expiresAt)
      && |r.value.clicks| == |rec.clicks|
      && forall k | 0 <= k < |rec.clicks| ::
           && r.value.clicks[k].timestamp == rec.clicks[k].timestamp
           && r.value.clicks[k].referrer == rec.clicks[k].referrer
           && r.value.clicks[k].location == rec.clicks[k].location
  {
    var key := CastShortcode(shortcode);
    if key !in store then Err(NotFound)
    else
      var rec := store[key];
      Ok(Statistics(rec.shortcode, rec.originalUrl, rec.createdAt, rec.expiresAt, rec.totalClicks,
                    IsExpired(rec, now), rec.validityMinutes,
                    seq(|rec.clicks|, k requires 0 <= k < |rec.clicks| => ViewOf(rec.clicks[k]))))
  }

  /** Whitespace around a shortcode does not matter for its statistics
      either. */
  lemma StatisticsIgnorePadding(store: Store, before: string, code: string, after: string, now: int)
    requires AllWhitespace(before) && AllWhitespace(after)
    requires code == [] || (!IsJsWhitespace(code[0]) && !IsJsWhitespace(code[|code| - 1]))
    ensures GetUrlStatistics(store, before + code + after, now) == GetUrlStatistics(store, code, now)
  {
    TrimOfPadded(before, code, after);
    CastShortcodeFixedPoints(code);
  }

  // -------------------------------------------------------------------------
  // The store invariant

  /** What every saved record satisfies: it is filed under its own shortcode,
      which the trim setter has left without surrounding whitespace, it
      passed validation, its counter matches its history, and every click
      location is filled in. */
  predicate WellFormedRecord(key: string, r: UrlRecord) {
    && r.shortcode == key
    && CastShortcode(key) == key
    && Violations(r) == []
    && ClickCountConsistent(r)
    && forall k | 0 <= k < |r.clicks| :: LocationKnown(r.clicks[k].location)
  }

  predicate StoreInvariant(store: Store) {
    forall key | key in store :: WellFormedRecord(key, store[key])
  }

  /** In a well-formed store no two records share a shortcode, no shortcode
      has surrounding whitespace, every URL has the http(s) shape, and every
      counter equals the length of its history. */
  lemma InvariantConsequences(store: Store)
    requires StoreInvariant(store)
    ensures forall a, b | a in store && b in store && a != b :: store[a].shortcode != store[b].shortcode
    ensures forall key | key in store :: CastShortcode(key) == key && CastShortcode(store[key].shortcode) == key
    ensures forall key | key in store :: MatchesHttpUrlPattern(store[key].originalUrl)
    ensures forall key | key in store :: store[key].totalClicks == |store[key].clicks|
  {
    forall a, b | a in store && b in store && a != b
      ensures store[a].shortcode != store[b].shortcode
    {
      assert WellFormedRecord(a, store[a]) && WellFormedRecord(b, store[b]);
    }
    forall key | key in store
      ensures MatchesHttpUrlPattern(store[key].originalUrl)
    {
      assert WellFormedRecord(key, store[key]);
    }
  }

  /** Creation keeps the store well formed. */
  lemma CreatePreservesInvariant(store: Store, config: Config, request: CreateRequest, now: int, created: int,
                                 isUrl: string -> bool, gen: nat -> ShortId)
    requires StoreInvariant(store)
    requires CreateShortUrl(store, config, request, now, created, isUrl, gen).Ok?
    ensures StoreInvariant(CreateShortUrl(store, config, request, now, created, isUrl, gen).value.store)
  {
    var c := CreateShortUrl(store, config, request, now, created, isUrl, gen).value;
    var rec := c.store[c.shortcode];
    assert Violations(rec) == [];
    forall key | key in c.store
      ensures WellFormedRecord(key, c.store[key])
    {
      if key != c.shortcode {
        assert c.store[key] == store[key];
      }
    }
  }

  /** A click with a known location, added to a well-formed record that
      still validates, leaves it well formed. */
  lemma AddClickKeepsWellFormed(key: string, prior: UrlRecord, click: Click)
    requires WellFormedRecord(key, prior) && LocationKnown(click.location)
    requires Violations(AddClick(prior, click)) == []
    ensures WellFormedRecord(key, AddClick(prior, click))
  {
    var rec := AddClick(prior, click);
    forall k | 0 <= k < |rec.clicks|
      ensures LocationKnown(rec.clicks[k].location)
    {
      if k < |prior.clicks| {
        assert rec.clicks[k] == prior.clicks[k];
      }
    }
  }

  /** A redirect keeps the store well formed. */
  lemma RedirectPreservesInvariant(store: Store, shortcode: string, clientIp: string, referrer: Option<string>,
                                   now: int, lookup: Option<Geo>)
    requires StoreInvariant(store)
    requires RedirectToOriginal(store, shortcode, clientIp, referrer, now, lookup).Ok?
    ensures StoreInvariant(RedirectToOriginal(store, shortcode, clientIp, referrer, now, lookup).value.store)
  {
    var s' := RedirectToOriginal(store, shortcode, clientIp, referrer, now, lookup).value.store;
    var found := CastShortcode(shortcode);
    var click := NewClick(now, clientIp, referrer, lookup);
    assert WellFormedRecord(found, store[found]);
    assert s' == store[found := AddClick(store[found], click)];
    AddClickKeepsWellFormed(found, store[found], click);
    forall key | key in s'
      ensures WellFormedRecord(key, s'[key])
    {
      if key != found {
        assert s'[key] == store[key];
      }
    }
  }

  /** On a well-formed store a redirect can fail only as "not found" or
      "expired" when the client address is known. */
  lemma RedirectFailsOnlyWhenMissingOrExpired(store: Store, shortcode: string, clientIp: string,
                                              referrer: Option<string>, now: int, lookup: Option<Geo>)
    requires StoreInvariant(store) && clientIp != ""
    ensures var r := RedirectToOriginal(store, shortcode, clientIp, referrer, now, lookup);
      r.Err? ==> r.error == NotFound || r.error == Expired
  {
  }

  // -------------------------------------------------------------------------
  // Scenarios

  /** A custom shortcode can be taken once: a second request with the same
      code and a URL that passes `isURL` (checked first) fails with "already
      exists", whatever its validity. */
  lemma SecondCustomShortcodeRejected(store: Store, config: Config, first: CreateRequest, second: CreateRequest,
                                      now: int, created: int, later: int, laterCreated: int,
                                      isUrl: string -> bool, gen: nat -> ShortId)
    requires Truthy(first.shortcode) && second.shortcode == first.shortcode
    requires Truthy(second.url) && isUrl(second.url.value)
    requires CreateShortUrl(store, config, first, now, created, isUrl, gen).Ok?
    ensures var s1 := CreateShortUrl(store, config, first, now, created, isUrl, gen).value.store;
      CreateShortUrl(s1, config, second, later, laterCreated, isUrl, gen) == Err(ShortcodeTaken)
  {
    var c := CreateShortUrl(store, config, first, now, created, isUrl, gen).value;
    assert c.shortcode == first.shortcode.value;
    assert MatchesShortcodePattern(c.shortcode) && c.shortcode in c.store;
  }

  /** A validity of zero is falsy and takes the default: the record is not
      expired at creation and lives for `defaultValidity` minutes. */
  lemma ZeroValidityTakesDefault(store: Store, config: Config, request: CreateRequest, now: int, created: int,
                                 isUrl: string -> bool, gen: nat -> ShortId)
    requires request.validity == Some(0)
    requires CreateShortUrl(store, config, request, now, created, isUrl, gen).Ok?
    ensures var c := CreateShortUrl(store, config, request, now, created, isUrl, gen).value;
      && c.store[c.shortcode].validityMinutes == config.defaultValidity
      && c.store[c.shortcode].expiresAt == now + config.defaultValidity * MillisPerMinute
  {
  }

  /** A negative validity is accepted, and the link it creates is already
      expired: a redirect at the moment of creation fails and records
      nothing. */
  lemma NegativeValidityIsBornExpired(store: Store, config: Config, request: CreateRequest, now: int, created: int,
                                      isUrl: string -> bool, gen: nat -> ShortId,
                                      clientIp: string, referrer: Option<string>, lookup: Option<Geo>)
    requires request.validity.Some? && request.validity.value < 0
    requires CreateShortUrl(store, config, request, now, created, isUrl, gen).Ok?
    ensures var c := CreateShortUrl(store, config, request, now, created, isUrl, gen).value;
      RedirectToOriginal(c.store, c.shortcode, clientIp, referrer, now, lookup) == Err(Expired)
  {
  }

  /** Creating a link with a validity of `minutes` and reading its statistics
      gives back those minutes, an expiry that many minutes after the first
      clock reading, the later reading as the creation time, and an empty
      history. Since the creation time is read later, a positive validity
      runs out no later than that many minutes after `createdAt`. */
  lemma CreateThenStatistics(store: Store, config: Config, request: CreateRequest, now: int, created: int, later: int,
                             isUrl: string -> bool, gen: nat -> ShortId, minutes: int)
    requires minutes != 0 && request.validity == Some(minutes)
    requires CreateShortUrl(store, config, request, now, created, isUrl, gen).Ok?
    ensures var c := CreateShortUrl(store, config, request, now, created, isUrl, gen).value;
      var stats := GetUrlStatistics(c.store, c.shortcode, later);
      && stats.Ok?
      && stats.value.validityMinutes == minutes
      && stats.value.expiresAt == now + minutes * MillisPerMinute
      && stats.value.createdAt == created
      && (now <= created && minutes > 0 ==>
            stats.value.expiresAt <= stats.value.createdAt + minutes * MillisPerMinute)
      && stats.value.totalClicks == 0 && stats.value.clicks == []
      && stats.value.originalUrl == request.url.value
  {
  }

  /** Statistics are read-only: reading them twice gives the same answer, and
      a redirect in between adds exactly one click, shown last. */
  lemma StatisticsAfterRedirect(store: Store, shortcode: string, clientIp: string, referrer: Option<string>,
                                now: int, lookup: Option<Geo>, later: int)
    requires RedirectToOriginal(store, shortcode, clientIp, referrer, now, lookup).Ok?
    ensures var before := GetUrlStatistics(store, shortcode, later);
      var s' := RedirectToOriginal(store, shortcode, clientIp, referrer, now, lookup).value.store;
      var after := GetUrlStatistics(s', shortcode, later);
      && before.Ok? && after.Ok?
      && after.value.totalClicks == before.value.totalClicks + 1
      && after.value.clicks == before.value.clicks + [ClickView(now, ClickReferrer(referrer), LocationFromLookup(lookup))]
  {
    var found := CastShortcode(shortcode);
    var before := GetUrlStatistics(store, shortcode, later).value;
    var s' := RedirectToOriginal(store, shortcode, clientIp, referrer, now, lookup).value.store;
    var after := GetUrlStatistics(s', shortcode, later).value;
    var prior, rec := store[found], s'[found];
    assert rec == AddClick(prior, NewClick(now, clientIp, referrer, lookup));
    assert |after.clicks| == |before.clicks| + 1;
    forall k | 0 <= k < |after.clicks|
      ensures after.clicks[k] == (before.clicks + [ClickView(now, ClickReferrer(referrer), LocationFromLookup(lookup))])[k]
    {
      if k < |before.clicks| {
        assert rec.clicks[k] == prior.clicks[k];
      }
    }
  }

  /** A redirect to a live, well-formed link with a known client address
      succeeds, keeps the link well formed, and appends its click. */
  lemma RedirectOnLiveLink(store: Store, shortcode: string, ip: string, now: int)
    requires shortcode in store && WellFormedRecord(shortcode, store[shortcode]) && ip != ""
    requires now <= store[shortcode].expiresAt
    ensures var r := RedirectToOriginal(store, shortcode, ip, None, now, None);
      && r.Ok?
      && shortcode in r.value.store
      && WellFormedRecord(shortcode, r.value.store[shortcode])
      && r.value.store[shortcode].expiresAt == store[shortcode].expiresAt
      && r.value.store[shortcode].clicks == store[shortcode].clicks + [NewClick(now, ip, None, None)]
      && r.value.store[shortcode].totalClicks == store[shortcode].totalClicks + 1
  {
    var prior := store[shortcode];
    var rec := RedirectToOriginal(store, shortcode, ip, None, now, None).value.store[shortcode];
    forall k | 0 <= k < |rec.clicks|
      ensures LocationKnown(rec.clicks[k].location)
    {
      if k < |prior.clicks| {
        assert rec.clicks[k] == prior.clicks[k];
      }
    }
  }

  /** Three redirects on a live link add three clicks, in call order, and
      raise the counter by three. */
  lemma ThreeRedirects(store: Store, shortcode: string, ip: string, now1: int, now2: int, now3: int)
    requires shortcode in store && WellFormedRecord(shortcode, store[shortcode]) && ip != ""
    requires now1 <= now2 <= now3 <= store[shortcode].expiresAt
    ensures var r1 := RedirectToOriginal(store, shortcode, ip, None, now1, None);
      r1.Ok? &&
      var r2 := RedirectToOriginal(r1.value.store, shortcode, ip, None, now2, None);
      r2.Ok? &&
      var r3 := RedirectToOriginal(r2.value.store, shortcode, ip, None, now3, None);
      r3.Ok? &&
      var rec := r3.value.store[shortcode];
      && rec.totalClicks == store[shortcode].totalClicks + 3
      && rec.clicks == store[shortcode].clicks + [NewClick(now1, ip, None, None),
                                                   NewClick(now2, ip, None, None),
                                                   NewClick(now3, ip, None, None)]
  {
    var c1, c2, c3 := NewClick(now1, ip, None, None), NewClick(now2, ip, None, None), NewClick(now3, ip, None, None);
    var h := store[shortcode].clicks;
    RedirectOnLiveLink(store, shortcode, ip, now1);
    var r1 := RedirectToOriginal(store, shortcode, ip, None, now1, None);
    var s1 := r1.value.store;
    assert s1[shortcode].clicks == h + [c1];
    RedirectOnLiveLink(s1, shortcode, ip, now2);
    var r2 := RedirectToOriginal(s1, shortcode, ip, None, now2, None);
    var s2 := r2.value.store;
    assert s2[shortcode].clicks == h + [c1] + [c2];
    RedirectOnLiveLink(s2, shortcode, ip, now3);
    var r3 := RedirectToOriginal(s2, shortcode, ip, None, now3, None);
    var s3 := r3.value.store;
    assert s3[shortcode].clicks == h + [c1] + [c2] + [c3];
    assert h + [c1] + [c2] + [c3] == h + [c1, c2, c3];
  }
}

=== FILE: url_shortener.dfy ===
/** The shortening form of the frontend: its list of one to five rows, the
    add, remove and edit operations on it, the three field validators, and
    the first half of `handleShortenUrl` (validation in order, then the
    request it sends). The clock (`Date.now()`, a row's new id) and the
    backend's answer are parameters. */
module UrlShortener {
  import opened Wrappers
  import opened JsText
  import opened UrlModel
  import opened UrlService

  const MaxRows := 5

  /** One row of the form. The three inputs are kept as typed; `result` is the
      backend's answer once the URL is shortened. */
  datatype Row = Row(
    id: int,
    url: string,
    validity: string,
    shortcode: string,
    result: Option<CreateResponse>,
    loading: bool,
    error: string)

  /** The three inputs a change event can name. */
  datatype Field = UrlInput | ValidityInput | ShortcodeInput

  function BlankRow(id: int): (row: Row)
    ensures row.id == id && row.url == "" && row.validity == "" && row.shortcode == ""
    ensures row.result.None? && !row.loading && row.error == ""
  {
    Row(id, "", "", "", None, false, "")
  }

  /** The form starts with one blank row whose id is 1. */
  const InitialRows: seq<Row> := [BlankRow(1)]

  // -------------------------------------------------------------------------
  // List operations

  /** The ids of the rows, in order. */
  function Ids(rows: seq<Row>): (ids: seq<int>)
    ensures |ids| == |rows| && forall k | 0 <= k < |rows| :: ids[k] == rows[k].id
  {
    seq(|rows|, k requires 0 <= k < |rows| => rows[k].id)
  }

  predicate DistinctIds(rows: seq<Row>) {
    forall i, j | 0 <= i < j < |rows| :: rows[i].id != rows[j].id
  }

  /** What the form keeps true: one to five rows, no two with the same id. */
  predicate RowsInvariant(rows: seq<Row>) {
    1 <= |rows| <= MaxRows && DistinctIds(rows)
  }

  lemma InitialRowsInvariant()
    ensures RowsInvariant(InitialRows)
  {
  }

  /** `handleAddUrl` with `Date.now()` as `newId`: below five rows a blank row
      goes at the end; at five nothing changes. */
  function AddRow(rows: seq<Row>, newId: int): (r: seq<Row>)
    ensures |rows| < MaxRows ==> |r| == |rows| + 1 && r[..|rows|] == rows && r[|rows|] == BlankRow(newId)
    ensures |rows| >= MaxRows ==> r == rows
  {
    if |rows| < MaxRows then rows + [BlankRow(newId)] else rows
  }

  /** `rows.filter(item => item.id !== id)`. */
  function WithoutId(rows: seq<Row>, id: int): (r: seq<Row>)
    ensures |r| <= |rows|
    ensures forall row :: row in r <==> row in rows && row.id != id
    decreases |rows|
  {
    if rows == [] then []
    else
      var rest := WithoutId(rows[..|rows| - 1], id);
      assert rows == rows[..|rows| - 1] + [rows[|rows| - 1]];
      if rows[|rows| - 1].id == id then rest else rest + [rows[|rows| - 1]]
  }

  /** `filter` keeps order: filtering a concatenation concatenates the
      filtered halves, and a single row stays exactly when its id differs. */
  lemma {:induction false} WithoutIdConcat(a: seq<Row>, b: seq<Row>, id: int)
    ensures WithoutId(a + b, id) == WithoutId(a, id) + WithoutId(b, id)
    decreases |b|
  {
    if b == [] {
      assert a + b == a;
    } else {
      var init := b[..|b| - 1];
      assert (a + b)[..|a + b| - 1] == a + init;
      assert (a + b)[|a + b| - 1] == b[|b| - 1];
      WithoutIdConcat(a, init, id);
    }
  }

  lemma WithoutIdSingle(row: Row, id: int)
    ensures WithoutId([row], id) == if row.id == id then [] else [row]
  {
    assert [row][..0] == [];
  }

  /** `handleRemoveUrl(id)`: with more than one row, every row with that id
      goes; a single row is never removed. */
  function RemoveRow(rows: seq<Row>, id: int): (r: seq<Row>)
    ensures |rows| <= 1 ==> r == rows
    ensures |rows| > 1 ==> r == WithoutId(rows, id)
  {
    if |rows| > 1 then WithoutId(rows, id) else rows
  }

  /** `rows.map(item => item.id === id ? change(item) : item)`. */
  function UpdateRow(rows: seq<Row>, id: int, change: Row -> Row): (r: seq<Row>)
    ensures |r| == |rows|
    ensures forall k | 0 <= k < |rows| :: r[k] == (if rows[k].id == id then change(rows[k]) else rows[k])
  {
    seq(|rows|, k requires 0 <= k < |rows| => if rows[k].id == id then change(rows[k]) else rows[k])
  }

  /** The row after a change event on `field`: that input takes the value,
      the error message is cleared, nothing else changes. */
  function Edited(row: Row, field: Field, value: string): (e: Row)
    ensures e.id == row.id && e.error == ""
    ensures e.url == (if field == UrlInput then value else row.url)
    ensures e.validity == (if field == ValidityInput then value else row.validity)
    ensures e.shortcode == (if field == ShortcodeInput then value else row.shortcode)
    ensures e.result == row.result && e.loading == row.loading
  {
    match field
    case UrlInput => row.(url := value, error := "")
    case ValidityInput => row.(validity := value, error := "")
    case ShortcodeInput => row.(shortcode := value, error := "")
  }

  /** `handleInputChange(id, field, value)`: the row with that id is edited;
      every other row stays as it was. */
  function InputChange(rows: seq<Row>, id: int, field: Field, value: string): (r: seq<Row>)
    ensures |r| == |rows|
    ensures forall k | 0 <= k < |rows| :: r[k] == (if rows[k].id == id then Edited(rows[k], field, value) else rows[k])
  {
    UpdateRow(rows, id, (row: Row) => Edited(row, field, value))
  }

  /** With distinct ids, removing an id that is present drops exactly one
      row. */
  lemma {:induction false} WithoutPresentId(rows: seq<Row>, id: int)
    requires DistinctIds(rows)
    ensures DistinctIds(WithoutId(rows, id))
    ensures |WithoutId(rows, id)| == |rows| - (if id in Ids(rows) then 1 else 0)
    decreases |rows|
  {
    if rows != [] {
      var init := rows[..|rows| - 1];
      var last := rows[|rows| - 1];
      assert DistinctIds(init);
      WithoutPresentId(init, id);
      var rest := WithoutId(init, id);
      assert Ids(rows) == Ids(init) + [last.id];
      if last.id != id {
        forall row | row in rest
          ensures row.id != last.id
        {
          var k :| 0 <= k < |init| && init[k] == row;
        }
        assert DistinctIds(rest + [last]);
      } else {
        assert id !in Ids(init);
      }
    }
  }

  lemma AddRowPreservesInvariant(rows: seq<Row>, newId: int)
    requires RowsInvariant(rows) && newId !in Ids(rows)
    ensures RowsInvariant(AddRow(rows, newId))
  {
    if |rows| < MaxRows {
      var r := AddRow(rows, newId);
      forall i, j | 0 <= i < j < |r|
        ensures r[i].id != r[j].id
      {
        if j == |rows| {
          assert Ids(rows)[i] == rows[i].id;
        }
      }
    }
  }

  lemma RemoveRowPreservesInvariant(rows: seq<Row>, id: int)
    requires RowsInvariant(rows)
    ensures RowsInvariant(RemoveRow(rows, id))
    ensures |rows| > 1 ==> forall row | row in RemoveRow(rows, id) :: row.id != id
  {
    if |rows| > 1 {
      WithoutPresentId(rows, id);
    }
  }

  lemma InputChangePreservesInvariant(rows: seq<Row>, id: int, field: Field, value: string)
    requires RowsInvariant(rows)
    ensures RowsInvariant(InputChange(rows, id, field, value))
  {
  }

  /** The invariant rests on distinct ids: two rows added in the same
      millisecond share an id, and removing it empties the form. */
  lemma SharedIdEmptiesForm(id: int)
    ensures RemoveRow([BlankRow(id), BlankRow(id)], id) == []
  {
    var rows := [BlankRow(id), BlankRow(id)];
    assert rows[..1] == [BlankRow(id)];
    assert rows[..1][..0] == [];
    assert WithoutId(rows[..1][..0], id) == [];
    assert WithoutId(rows[..1], id) == [];
  }

  // -------------------------------------------------------------------------
  // Validators

  /** `validateUrl`: `/^https?:\/\/.+/`, the same pattern the backend's schema
      enforces. */
  predicate ValidateUrl(url: string): (ok: bool)
    ensures ok ==> |url| > 7 && (url[..7] == "http://" || url[..8] == "https://")
  {
    MatchesHttpUrlPattern(url)
  }

  /** `validateValidity`: empty is fine; otherwise `parseInt` must give a
      positive number. */
  predicate ValidateValidity(validity: string): (ok: bool)
    ensures |validity| == 0 ==> ok
    ensures ok && |validity| > 0 ==>
      ParseInt(validity).Some? && forall defaultValidity: int ::
        EffectiveValidity(ParseInt(validity), defaultValidity) == ParseInt(validity).value
  {
    |validity| == 0 || (ParseInt(validity).Some? && ParseInt(validity).value > 0)
  }

  /** `validateShortcode`: empty is fine; otherwise `/^[a-zA-Z0-9]{3,10}$/`. */
  predicate ValidateShortcode(shortcode: string): (ok: bool)
    ensures ok && shortcode != "" ==> 3 <= |shortcode| <= 10
    ensures ok ==> CastShortcode(shortcode) == shortcode
  {
    var ok := shortcode == "" || MatchesShortcodePattern(shortcode);
    assert ok ==> CastShortcode(shortcode) == shortcode by {
      if shortcode != "" && ok {
        CastOfPatternCode(shortcode);
      }
    }
    ok
  }

  /** The form's shortcode check is the service's: the form lets through the
      empty field, which sends no shortcode and so has the service generate
      one, and exactly those typed codes the service does not turn down for
      their format (`isValidShortcode`). */
  lemma FormShortcodeCheckIsServiceCheck(shortcode: string, store: Store, gen: nat -> ShortId)
    ensures shortcode == "" ==> ValidateShortcode(shortcode)
    ensures shortcode != "" ==>
      (ValidateShortcode(shortcode) <==> ResolveShortcode(store, Some(shortcode), gen) != Err(ShortcodeFormat))
  {
  }

  /** A URL the form accepts is one the backend's schema accepts, and the
      other way round, for any shortcode the schema's trim leaves non-empty. */
  lemma FormUrlCheckIsSchemaCheck(url: string, shortcode: string, now: int, expiresAt: int, minutes: int)
    requires !AllWhitespace(shortcode)
    ensures ValidateUrl(url) <==> Violations(NewRecord(url, shortcode, now, expiresAt, minutes)) == []
  {
  }

  /** A decimal numeral is a valid validity exactly when it is positive;
      `parseInt` stops at the first non-digit, so trailing text is ignored. */
  lemma ValidityOfDecimal(n: nat, rest: string)
    requires rest == [] || !IsDecimalDigit(rest[0])
    requires n == 0 && rest != [] ==> rest[0] != 'x' && rest[0] != 'X'
    ensures ValidateValidity(DecimalString(n) + rest) <==> n > 0
  {
    ParseIntOfDecimal(n, rest);
  }

  /** A negative numeral (or minus zero) is rejected, whatever follows it. */
  lemma NegativeValidityRejected(n: nat, rest: string)
    requires rest == [] || !IsDecimalDigit(rest[0])
    requires n == 0 && rest != [] ==> rest[0] != 'x' && rest[0] != 'X'
    ensures !ValidateValidity("-" + (DecimalString(n) + rest))
  {
    ParseIntOfNegativeDecimal(n, rest);
  }

  /** Text with no digit at all is rejected. */
  lemma NonNumericValidityRejected(validity: string)
    requires validity != "" && forall k | 0 <= k < |validity| :: !IsDecimalDigit(validity[k])
    ensures !ValidateValidity(validity)
  {
  }

  // -------------------------------------------------------------------------
  // handleShortenUrl

  const UrlMessage := "Please enter a valid URL starting with http:// or https://"
  const ValidityMessage := "Validity must be a positive number"
  const ShortcodeMessage := "Shortcode must be 3-10 alphanumeric characters"
  const FallbackMessage := "Failed to shorten URL"

  /** How the handler's synchronous part ends: a row marked with a
      validation error, or the rows with that row loading and the request to
      send. */
  datatype ShortenStart =
    | Rejected(rows: seq<Row>)
    | Requesting(rows: seq<Row>, request: CreateRequest)

  function SetError(rows: seq<Row>, id: int, message: string): seq<Row> {
    UpdateRow(rows, id, (row: Row) => row.(error := message))
  }

  /** The request body: the URL as typed, the parsed validity unless the
      field is empty, the shortcode unless it is empty. */
  function BuildRequest(item: Row): (request: CreateRequest)
    ensures request.url == Some(item.url)
    ensures item.validity == "" ==> request.validity.None?
    ensures item.validity != "" ==> request.validity == ParseInt(item.validity)
    ensures item.shortcode == "" <==> request.shortcode.None?
    ensures item.shortcode != "" ==> request.shortcode == Some(item.shortcode)
  {
    CreateRequest(Some(item.url),
                  if item.validity != "" then ParseInt(item.validity) else None,
                  if item.shortcode != "" then Some(item.shortcode) else None)
  }

  /** `handleShortenUrl(item)` up to the request: URL, then validity, then
      shortcode; the first failure puts its message on the row and nothing
      is sent. */
  function StartShorten(rows: seq<Row>, item: Row): (s: ShortenStart)
    ensures s.Rejected? <==> !ValidateUrl(item.url) || !ValidateValidity(item.validity) || !ValidateShortcode(item.shortcode)
    ensures !ValidateUrl(item.url) ==> s == Rejected(SetError(rows, item.id, UrlMessage))
    ensures ValidateUrl(item.url) && !ValidateValidity(item.validity) ==>
      s == Rejected(SetError(rows, item.id, ValidityMessage))
    ensures ValidateUrl(item.url) && ValidateValidity(item.validity) && !ValidateShortcode(item.shortcode) ==>
      s == Rejected(SetError(rows, item.id, ShortcodeMessage))
    ensures s.Requesting? ==>
      && s.request == BuildRequest(item)
      && s.rows == UpdateRow(rows, item.id, (row: Row) => row.(loading := true, error := ""))
  {
    if !ValidateUrl(item.url) then Rejected(SetError(rows, item.id, UrlMessage))
    else if !ValidateValidity(item.validity) then Rejected(SetError(rows, item.id, ValidityMessage))
    else if !ValidateShortcode(item.shortcode) then Rejected(SetError(rows, item.id, ShortcodeMessage))
    else Requesting(UpdateRow(rows, item.id, (row: Row) => row.(loading := true, error := "")), BuildRequest(item))
  }

  /** What the request came back with: the response body, or a failure with
      the server's `error` field if it sent one. */
  datatype ShortenOutcome = Succeeded(response: CreateResponse) | FailedWith(serverError: Option<string>)

  /** The second half of `handleShortenUrl`. Its updates map over the list
      captured when the handler started, so `captured` is that list, not the
      one showing the loading flag. */
  function FinishShorten(captured: seq<Row>, id: int, outcome: ShortenOutcome): (r: seq<Row>)
    ensures |r| == |captured|
    ensures forall k | 0 <= k < |captured| && captured[k].id != id :: r[k] == captured[k]
    ensures forall k | 0 <= k < |captured| && captured[k].id == id ::
      && !r[k].loading
      && (outcome.Succeeded? ==> r[k] == captured[k].(result := Some(outcome.response), loading := false))
      && (outcome.FailedWith? ==> r[k] == captured[k].(loading := false, error := r[k].error) && r[k].error != "")
      && (outcome.FailedWith? && Truthy(outcome.serverError) ==> r[k].error == outcome.serverError.value)
      && (outcome.FailedWith? && !Truthy(outcome.serverError) ==> r[k].error == FallbackMessage)
  {
    match outcome
    case Succeeded(response) => UpdateRow(captured, id, (row: Row) => row.(result := Some(response), loading := false))
    case FailedWith(serverError) =>
      var message := if Truthy(serverError) then serverError.value else FallbackMessage;
      UpdateRow(captured, id, (row: Row) => row.(loading := false, error := message))
  }

  /** A request the form sends is one the backend will not turn down for its
      URL shape, its validity or its shortcode format: the URL passes the
      schema's pattern, a given validity is positive and is the one used,
      and a given shortcode never draws the format error. */
  lemma FormRequestsPassBackendChecks(rows: seq<Row>, item: Row, store: Store, defaultValidity: int,
                                      gen: nat -> ShortId)
    requires ValidateUrl(item.url) && ValidateValidity(item.validity) && ValidateShortcode(item.shortcode)
    ensures StartShorten(rows, item).Requesting?
    ensures var request := StartShorten(rows, item).request;
      && request.url.Some? && MatchesHttpUrlPattern(request.url.value)
      && (request.validity.Some? ==>
            request.validity.value > 0
            && EffectiveValidity(request.validity, defaultValidity) == request.validity.value)
      && ResolveShortcode(store, request.shortcode, gen) != Err(ShortcodeFormat)
      && (request.shortcode.Some? ==> MatchesShortcodePattern(request.shortcode.value))
  {
  }
}

=== FILE: wrappers.dfy ===
/** Option and Result values: the model's stand-ins for JavaScript's
    `undefined` and for thrown errors. */
module Wrappers {

  /** A value that may be absent (`undefined` in the source). */
  datatype Option<+T> = None | Some(value: T) {

    /** The value, or `default` when absent. */
    function GetOr(default: T): T {
      match this
      case Some(v) => v
      case None => default
    }
  }

  /** The outcome of an operation that either returns a value or throws. */
  datatype Result<+T, +E> = Ok(value: T) | Err(error: E)
}
